=== FILE: README.md ===
# Hindmarsh-Rose v2 plugin: control and configuration logic in Dafny

The plugin integrates a three-variable Hindmarsh-Rose neuron (x, y, z) once
per host tick. The host configures it with named values, feeds it a synaptic
input and reads the membrane potential back. Around the numerical integrator
sits a small controller. From the burst duration and the tick period it picks
an integration step size `dt` out of a 12-entry table, and a number of
sub-steps per tick, `s_points`.

The repository has three variants of this logic that have drifted apart:

- the C plugin (`src/hindmarsh_rose_v2.c`), the one the build compiles;
- a C++ near-copy (`src/hindmarsh_rose_v2.cpp`) with fewer guards;
- a Rust runtime (`src/lib.rs`) with a different step-size rule.

All three are modelled side by side as pure functions over one shared state record. Lemmas relate them to each other.

Modules:

- `Float` (`float.dfy`) models IEEE doubles as `Fin(real) | PosInf | NegInf | NaN`.
  - Comparisons are false on NaN.
  - Arithmetic is exact on finite values and follows IEEE for infinities and NaN.
  - `(size_t)llround(d)` and Rust's `d.round() as usize` are modelled as two separate conversions.
- `StepTable` (`step_table.dfy`) holds the shared table and the nearest-entry scan of the C and C++ lookups. It proves the scan returns the nearest entry, with ties going to the smaller index.
- `NeuronState` (`neuron_state.dfy`) holds the shared state record and the initial state. It also holds the parameter snapshot handed to the integrator and the sub-step loop.
  - The Runge-Kutta step is a function-typed parameter.
  - A tick returns the list of calls made to it, so the number of calls, their `dt` and their parameter snapshot can all be stated.
- `CPlugin`, `CppPlugin` and `RustPlugin` each model one variant: its lookup, controller, per-tick entry point, key dispatch and outputs. Each also runs sequences of host calls from the initial state.

## Model

| member | source | states |
|---|---|---|
| StepTable.TableShape | src/hindmarsh_rose_v2.c:230-231 | both tables have 12 entries; reference values strictly decrease and step sizes strictly increase; 0.0015 is a table step |
| StepTable.NearestIndexCharacterized | src/hindmarsh_rose_v2.c:234-245 | for a finite key the scan's index is the nearest entry with ties going to the smaller index, and no other index is |
| StepTable.NearestUnique | src/hindmarsh_rose_v2.c:237-243 | the nearest entry under the smaller-index tie-break is unique |
| StepTable.NearestIndexNonFinite | src/hindmarsh_rose_v2.cpp:196-208 | against a NaN or infinite key no strict comparison succeeds and the scan keeps index 0 |
| StepTable.NearestBelowTable | src/hindmarsh_rose_v2.c:234-245 | a key at or below the last reference value is nearest to the last entry |
| NeuronState.InitialState | src/hindmarsh_rose_v2.c:57-76 | the created state, the same in src/hindmarsh_rose_v2.cpp:55-71 and src/lib.rs:22-45: finite x, y, z equal to their configured fallback, dt 0.0015 with one sub-step, burst 1 s over a 1 ms period, no input |
| NeuronState.Integrate | src/hindmarsh_rose_v2.c:159-165 | n sub-steps make exactly n integrator calls with one dt and one parameter snapshot, each starting where the previous ended |
| Float.LlRoundExceeds | src/hindmarsh_rose_v2.c:211 | for a positive quotient, llround exceeds a bound exactly when the quotient reaches the bound plus one half |
| Float.LlRoundSmall | src/hindmarsh_rose_v2.c:211 | below 2^62, llround of a positive quotient is the quotient plus one half, floored |
| CPlugin.KeyEq | src/hindmarsh_rose_v2.c:256-259 | key_eq holds exactly when the key equals the literal |
| CPlugin.SelectOptimalDt | src/hindmarsh_rose_v2.c:226-246 | the result is always a table step size of at least 0.0005, and 0.0015 for a non-finite key |
| CPlugin.SelectOptimalDtIsNearest | src/hindmarsh_rose_v2.c:234-245 | for a finite key the result is the step size of the nearest entry, ties going to the smaller index |
| CPlugin.LookupAtZero | src/hindmarsh_rose_v2.c:234-245 | zero points per burst selects the last entry, 0.1 s |
| CPlugin.SelectPtsBurst | src/hindmarsh_rose_v2.c:248-254 | burst/period when both are finite and the period is positive, else 1.0; so the key is finite in exact arithmetic (an IEEE quotient can still overflow, see Left out) |
| CPlugin.UpdateBurstSettings | src/hindmarsh_rose_v2.c:181-224 | only dt and s_points change; s_points is in [1, 10]; a period <= 0 gives one step and keeps dt; otherwise dt is finite and at least 0.0005; burst mode gives one step of the step size looked up for burst/period; continuous mode gives a table dt, or ten steps that split the period exactly |
| CPlugin.WorkingDt | src/hindmarsh_rose_v2.c:191-196 | the 0.0015 fallback never fires, because the lookup always gives a finite table value above DBL_MIN |
| CPlugin.ContinuousTiming | src/hindmarsh_rose_v2.c:206-222 | one to ten steps; the step size is at least 0.0005; either the working dt is kept or the period is split into ten equal steps |
| CPlugin.CeilingStretchesStep | src/hindmarsh_rose_v2.c:216-219 | when the rounded step count exceeds ten, period/10 is strictly longer than the table step |
| CPlugin.CeilingTiming | src/hindmarsh_rose_v2.c:211-219 | when period/dt is at least 10.5, the timing is ten steps of period/10 |
| CPlugin.RoundedTiming | src/hindmarsh_rose_v2.c:211-222 | when period/dt is below 10.5, dt is kept and the step count is period/dt rounded, at least one |
| CPlugin.ContinuousModeSteps | src/hindmarsh_rose_v2.c:202-223 | continuous mode with a positive period: with d the looked-up step and q = period/d, q >= 10.5 gives ten steps of period/10, each longer than d; otherwise d is kept with max(1, round(q)) steps |
| CPlugin.ContinuousModeCoversTick | src/hindmarsh_rose_v2.c:202-223 | in continuous mode, s_points steps of dt cover the period to within half a step |
| CPlugin.BurstModeStep | src/hindmarsh_rose_v2.c:190-201 | burst mode with a finite positive burst and period: dt is the step of the table entry nearest to burst/period points, with one sub-step |
| CPlugin.NonFinitePeriodOneStep | src/hindmarsh_rose_v2.c:190-210 | continuous mode with a NaN or +inf period: the key falls back to 1.0, which selects 0.1 s, and the non-finite quotient gives exactly one sub-step of 0.1 s |
| CPlugin.UpdateBurstSettingsIdempotent | src/hindmarsh_rose_v2.c:181-224 | rerunning the controller changes nothing |
| CPlugin.Process | src/hindmarsh_rose_v2.c:131-166 | a null state is a no-op; only x, y, z and dt change; a dt that is not finite or not above DBL_MIN becomes 0.0015, else it is kept; exactly clamp(s_points, 1, 50) calls share that dt and one parameter snapshot; they start from the live state when it is finite, else from the configured one |
| CPlugin.SetConfig | src/hindmarsh_rose_v2.c:90-119 | null state or key is a no-op; x, y and z set the live value and its fallback; every other known key sets only its own field; an unknown key changes only the recomputed dt and s_points; the result is settled under the controller |
| CPlugin.UnknownKeyKeepsOutputs | src/hindmarsh_rose_v2.c:90-119 | configuring an unknown key changes no output |
| CPlugin.SetInput | src/hindmarsh_rose_v2.c:121-129 | only "i_syn" on a live state changes anything, and it changes only the input |
| CPlugin.GetOutput | src/hindmarsh_rose_v2.c:168-179 | x for "x" and "Membrane potential (V)", x*1000 for "Membrane potential (mV)", y and z for their keys; 0.0 for an unknown key or a null argument |
| CPlugin.RunStaysHealthy | src/hindmarsh_rose_v2.c:181-224 | host calls preserve a finite dt of at least 0.0005 and s_points in [1, 10] |
| CPlugin.ReachableIsHealthy | src/hindmarsh_rose_v2.c:131-166 | from creation, every reachable state is healthy, and process keeps its dt and makes exactly s_points calls, so the repair and the 50-step limit never act |
| CPlugin.InitialNotSettled | src/hindmarsh_rose_v2.c:57-76 | the initial 0.0015 s step is not what the controller picks for the initial timing: it picks 0.1 s with one step |
| CPlugin.InitialPeriodSettles | src/hindmarsh_rose_v2.c:115-118 | re-configuring the initial 1 ms period moves dt to 0.1 s and changes nothing else |
| CPlugin.ContinuousAtOneMillisecond | src/hindmarsh_rose_v2.c:202-213 | then switching to burst 0 keeps 0.1 s and one step, because 0.001/0.1 rounds to 0 |
| CPlugin.OneMillisecondContinuousSettled | src/hindmarsh_rose_v2.c:206-214 | at a 1 ms period and burst 0, 0.1 s with one step is already settled |
| CPlugin.OneMillisecondTiming | src/hindmarsh_rose_v2.c:211-214 | 1 ms over 0.1 s rounds to no steps, which is raised to one; the step size is kept |
| CppPlugin.StrnEqPrefix | src/hindmarsh_rose_v2.cpp:91 | against a literal with no NUL, strncmp over n characters compares exactly the first n |
| CppPlugin.KeyMatches | src/hindmarsh_rose_v2.cpp:91-112 | the length check plus strncmp holds exactly when the key equals the literal |
| CppPlugin.SelectOptimalDt | src/hindmarsh_rose_v2.cpp:192-209 | always a table step size; a NaN or infinite key gives the first entry, 0.0005 |
| CppPlugin.SelectOptimalDtIsNearest | src/hindmarsh_rose_v2.cpp:196-208 | for a finite key, the step size of the nearest entry, ties going to the smaller index |
| CppPlugin.DiffersFromCOnNonFiniteKey | src/hindmarsh_rose_v2.cpp:192-209 | on a non-finite key the C++ lookup gives 0.0005 where the C lookup gives 0.0015 |
| CppPlugin.SelectPtsBurst | src/hindmarsh_rose_v2.cpp:211-214 | 1.0 for a period <= 0; burst/period for finite inputs with a positive period; NaN for a NaN period |
| CppPlugin.UpdateBurstSettings | src/hindmarsh_rose_v2.cpp:159-190 | only dt and s_points change; s_points is in [1, 10]; a period <= 0 gives one step with dt kept; burst mode gives one step of the step size looked up for burst/period; otherwise a table dt or ten steps of period/10; a NaN or +inf period in continuous mode leaves a non-finite dt |
| CppPlugin.BurstModeStep | src/hindmarsh_rose_v2.cpp:165-172 | burst mode with a finite positive burst and period: dt is the step of the table entry nearest to burst/period points, with one sub-step |
| CppPlugin.UpdateBurstSettingsIdempotent | src/hindmarsh_rose_v2.cpp:159-190 | rerunning the controller changes nothing |
| CppPlugin.AgreesWithCOnFiniteTiming | src/hindmarsh_rose_v2.cpp:159-190 | with finite burst duration and period, and exact arithmetic, the C++ controller computes exactly what the C controller does |
| CppPlugin.Process | src/hindmarsh_rose_v2.cpp:124-144 | only x, y, z change; exactly clamp(s_points, 1, 50) calls from the live state with the stored dt and one parameter snapshot; no repair |
| CppPlugin.SetConfig | src/hindmarsh_rose_v2.cpp:88-114 | x, y and z set the live value and its fallback; every other known key sets only its own field; an unknown key changes only dt and s_points; the result is settled |
| CppPlugin.SetInput | src/hindmarsh_rose_v2.cpp:116-122 | only "i_syn" changes the input, and nothing else |
| CppPlugin.GetOutput | src/hindmarsh_rose_v2.cpp:146-157 | x, y, z and the potentials by exact name; 0.0 for an unknown name or a null argument |
| CppPlugin.OutputAgreesWithC | src/hindmarsh_rose_v2.cpp:146-157 | the C and C++ outputs agree on every state and name |
| CppPlugin.RunKeepsStepCount | src/hindmarsh_rose_v2.cpp:159-190 | host calls keep s_points in [1, 10] |
| CppPlugin.ReachableTickSteps | src/hindmarsh_rose_v2.cpp:127-143 | from creation, a tick makes exactly s_points calls, and the 50-step limit never acts |
| CppPlugin.NaNPeriodReachesIntegrator | src/hindmarsh_rose_v2.cpp:177-185 | configuring burst 0 and then a NaN period leaves dt = NaN, and the next tick hands NaN to the integrator ten times |
| CppPlugin.InfPeriodReachesIntegrator | src/hindmarsh_rose_v2.cpp:177-185 | configuring burst 0 and then a +inf period leaves dt = +inf, and the next tick hands +inf to the integrator ten times |
| RustPlugin.SelectOptimalDt | src/lib.rs:72-87 | always a table step size; NaN and -inf give the last entry, +inf gives the first |
| RustPlugin.ThresholdIndexCharacterized | src/lib.rs:81-86 | for a finite key the scan's index is the first entry at or below the key, or the last entry if none is; no other index is |
| RustPlugin.SelectOptimalDtIsThreshold | src/lib.rs:81-86 | for a finite key, the step size of the first entry at or below the key, else 0.1 |
| RustPlugin.SelectOptimalDtAntitone | src/lib.rs:76-86 | a larger key never selects a larger step size |
| RustPlugin.LookupDiffersFromC | src/lib.rs:81-86 | at 280000 points the Rust lookup picks 0.0015 where the C lookup picks 0.001 |
| RustPlugin.SelectPtsBurst | src/lib.rs:89-93 | for finite inputs the result is the key sec_per_burst * freq itself, not a step count: the lookup it performs is discarded (its partner is BurstStepCount) |
| RustPlugin.BurstKey | src/lib.rs:55-56 | for a finite burst and a finite positive period, the key is burst times 1/period |
| RustPlugin.BurstStepCount | src/lib.rs:58-61 | select_pts_burst divided by the same product, rounded and raised to one, is always 1 |
| RustPlugin.UpdateBurstSettings | src/lib.rs:48-70 | only dt and s_points change; s_points >= 1; a period <= 0 gives one step with dt kept; burst mode gives one step of the step size looked up for burst*(1/period); continuous mode keeps dt; a finite dt stays finite |
| RustPlugin.UpdateBurstSettingsIdempotent | src/lib.rs:48-70 | rerunning the controller changes nothing |
| RustPlugin.BurstModeStep | src/lib.rs:54-61 | with a finite positive burst and period, dt is the first table entry at or below burst/period, with one step |
| RustPlugin.ContinuousModeCoversTick | src/lib.rs:62-65 | continuous mode keeps dt; s_points is period/dt rounded half away from zero, at least one; and s_points steps of dt cover the period to within half a step, however many steps that takes |
| RustPlugin.InfPeriodSteps | src/lib.rs:199-209 | a +inf host period is adopted by a tick (the recount is src/lib.rs:62-65); in continuous mode with a positive dt the count saturates to 2^64-1, so the tick runs the 10000-step limit, and dt is kept |
| Float.RoundToUsize | src/lib.rs:63 | the `as usize` cast saturates: +inf gives 2^64-1; NaN, -inf and values below one half give 0; in range, the value is rounded half away from zero |
| RustPlugin.NonPositiveDtSteps | src/lib.rs:62-65 | continuous mode with a finite positive period and a configured dt <= 0: dt = 0 saturates the count to 2^64-1, so a tick runs 10000 sub-steps of size 0; dt < 0 gives one sub-step, taken backwards |
| RustPlugin.ContinuousModeHasNoCeiling | src/lib.rs:62-65 | a 1 s period at dt 0.0015 in continuous mode gives 667 steps; there is no ceiling of ten |
| RustPlugin.ResetIfMoved | src/lib.rs:184-188 | afterwards the live x, y, z are the configured ones, whether or not they compared equal before |
| RustPlugin.SetConfigValue | src/lib.rs:167-191 | afterwards the live state equals the configured one and the controller is settled; a numeric x, y or z sets the fallback; other known keys set their own field; a numeric "dt" survives unless burst mode replaces it; no other key changes dt outside burst mode; a non-numeric value or an unknown key still resets the live state and reruns the controller |
| RustPlugin.SetInputValue | src/lib.rs:193-197 | "i_syn" stores the input, a non-finite value as 0.0, so the stored input is always finite; other keys change nothing |
| RustPlugin.InputAgreesWithCWhenFinite | src/lib.rs:193-197 | on a finite value, Rust and C store the same input |
| RustPlugin.StepLoop | src/lib.rs:95-116 | n calls of step re-read dt and the parameters from the record each time; since nothing else changes, they form one run under the starting dt and snapshot |
| RustPlugin.ProcessTick | src/lib.rs:199-209 | a host period that moved by more than f64::EPSILON is adopted and the controller reruns, else nothing but x, y, z changes; exactly clamp(s_points, 1, 10000) calls share one dt and snapshot |
| RustPlugin.SteadyPeriodSkipsController | src/lib.rs:200-203 | a host period within f64::EPSILON of the stored one, or a NaN on either side, leaves the timing alone |
| RustPlugin.GetOutputValue | src/lib.rs:211-217 | x for volts, x*1000 for millivolts, 0.0 for any other key |
| RustPlugin.GetInternalValue | src/lib.rs:219-226 | Some exactly for x, y and z, holding that variable |
| RustPlugin.OutputsAgreeWithC | src/lib.rs:211-226 | the Rust potentials and internal values match what the C get_output returns for the same names |
| RustPlugin.RunStaysHealthy | src/lib.rs:199-209 | host calls preserve a finite dt and s_points >= 1 |
| RustPlugin.ReachableStepIsFinite | src/lib.rs:199-209 | from creation, even with NaN or infinite host periods, every call of the next tick gets a finite dt, and there are 1 to 10000 calls |

## Left out

- Floating-point rounding, overflow and signed zero: a finite double is an exact real. So `x * 1000.0`, `period / dt` and `burst * (1 / period)` are exact, and f64::EPSILON only appears in the comparison of process_tick.
- Float.LlRoundToSize: values outside the `long long` range, NaN and the infinities give LLONG_MIN, which the cast turns into 2^63. That is the x86-64 result; the C standard leaves the value unspecified.
- The Runge-Kutta integrator (`rtsyn_plugin_rk4_step_n`, `rk4_step`) is a foreign routine. It is a function-typed parameter, and only the calls made to it are stated.
- NeuronState.Deriv: the derivative callback is written out in exact arithmetic for reference. No contract mentions it, because the integrator that calls it is abstract.
- Allocation and release (`hindmarsh_rose_v2_new`, `hindmarsh_rose_v2_free`) are left out. A null state is modelled as `None` where the C code checks for it.
- The C++ entry points other than get_output do not check for null. The model gives them a live state and key.
- The plugin descriptor, default_vars, export_plugin! and the JSON layer beyond "is it a number" are host glue.
- `src/hindmarsh_rose_v2.h` and `build.rs` are not part of this model: they hold declarations and build configuration.
- A serde_json number that does not fit an f64 exactly is taken as its exact real value.
- The tick counter argument of process_tick is ignored by the source, so it is not modelled.
- RustPlugin.ContinuousModeCoversTick: stated only for a positive dt and period/dt below 2^62. Beyond 2^64 the saturating cast makes the statement false. A configured dt <= 0, which set_config_value accepts, is covered by RustPlugin.NonPositiveDtSteps instead.
- CppPlugin.AgreesWithCOnFiniteTiming: holds in exact arithmetic only. With finite inputs whose quotient overflows, such as burst 1e300 s and period 1e-10 s, src/hindmarsh_rose_v2.c:253 returns +inf. The C lookup then falls back to 0.0015 (src/hindmarsh_rose_v2.c:227-228), while the C++ lookup keeps index 0 and gives 0.0005 (src/hindmarsh_rose_v2.cpp:197-208). This is the only way the C lookup's non-finite guard fires inside the controller, and the model cannot reach it.
- CPlugin.SelectPtsBurst: finite only in exact arithmetic, for the same overflow reason.
- RustPlugin.UpdateBurstSettings: the contract only says the continuous-mode step count is at least one. Its value is stated by ContinuousModeCoversTick for a positive dt and a finite period with period/dt below 2^62, by InfPeriodSteps for a +inf period, and by NonPositiveDtSteps for dt <= 0. A NaN period is never stored: a JSON number is finite, and a tick never adopts a NaN host period.

## Behaviour of the code worth knowing

- **The ceiling branch lengthens the step.** When more than ten steps would be needed, the C and C++ controllers replace dt by period/10 (src/hindmarsh_rose_v2.c:216-219). The comment there says dt is adapted to keep the step count. Since period/dt is at least 10.5 there, period/10 is strictly longer than the table step (`CPlugin.CeilingStretchesStep`), so each sub-step is coarser.
- **dt is not always a table value.** The ceiling branch produces period/10 (`CPlugin.UpdateBurstSettings`).
- **The initial state is not settled.** The initial 0.0015 s step is not what the controller picks for the initial timing (burst 1 s, period 1 ms, so 1000 points per burst): it picks 0.1 s with one step (`CPlugin.InitialNotSettled`).
- **Non-numeric Rust configuration values are not no-ops.** set_config_value with a non-numeric value still resets the live x, y, z to the configured ones and reruns the controller (`RustPlugin.SetConfigValue`).
- **A +inf host period saturates the Rust step count.** process_tick adopts it (src/lib.rs:200-203); period/dt is +inf, the cast gives 2^64-1, and every later tick runs 10000 sub-steps until a finite period arrives (`RustPlugin.InfPeriodSteps`).
- **Rust accepts a step size of zero or below.** set_config_value stores any numeric "dt" (src/lib.rs:177). In continuous mode, dt = 0 makes every tick run 10000 zero-size sub-steps, and a negative dt gives one backward sub-step (`RustPlugin.NonPositiveDtSteps`).

## Findings

| source | as written | input that shows it | evidently intended | confidence | as-written member | corrected member |
|---|---|---|---|---|---|---|
| src/hindmarsh_rose_v2.cpp:177-185 | continuous mode rounds period/dt with llround and no finiteness check; for a +inf or NaN period the rounded count exceeds ten, so dt becomes period/10, which is +inf or NaN | set_config("burst_duration", 0) then set_config("period_seconds", +inf) (or NaN), then process | treat a non-finite quotient as one step of the table dt, as the C variant does at src/hindmarsh_rose_v2.c:206-210: one sub-step of 0.1 s (CPlugin.NonFinitePeriodOneStep), so dt stays finite | medium for +inf (llround of an out-of-range value is unspecified, but exceeds ten on x86-64 and AArch64), low for NaN (platform-defined); not executed | CppPlugin.InfPeriodReachesIntegrator | CPlugin.UpdateBurstSettings |

=== FILE: c_plugin.dfy ===
/**
 * The C variant of the plugin (src/hindmarsh_rose_v2.c), the one the build
 * compiles. It is the most guarded of the three: non-finite timing inputs,
 * step sizes and state are all caught before they reach the integrator.
 *
 * A null state or key pointer is `None`.
 */
module CPlugin {
  import opened Float
  import opened StepTable
  import opened NeuronState

  /** Most sub-steps the controller schedules per tick in continuous mode. */
  const MaxSteps: nat := 10

  /** Hard ceiling on sub-steps per tick in process. */
  const TickStepLimit: nat := 50

  /** The keys set_config recognises. */
  const ConfigKeys: set<string> := {"x", "y", "z", "e", "mu", "s", "vh", "burst_duration", "period_seconds"}

  /** The keys get_output recognises. */
  const OutputKeys: set<string> := {"x", "y", "z", "Membrane potential (mV)", "Membrane potential (V)"}

  /** key_eq: the key's byte range has the literal's length and the same bytes. */
  function KeyEq(key: string, lit: string): (b: bool)
    ensures b <==> key == lit
  {
    |key| == |lit| && forall i | 0 <= i < |lit| :: key[i] == lit[i]
  }

  /** select_optimal_dt: the step size of the nearest table entry; 0.0015 for a non-finite key. */
  function SelectOptimalDt(m: Dbl): (dt: Dbl)
    ensures dt.Fin? && dt.r in Dts && dt.r >= 0.0005
    ensures !m.Fin? ==> dt == Fin(DefaultDt)
  {
    TableShape();
    if !IsFinite(m) then Fin(DefaultDt) else Fin(Dts[NearestIndex(m)])
  }

  /** For a finite key, select_optimal_dt returns the step size of the nearest entry. */
  lemma SelectOptimalDtIsNearest(m: real, k: nat)
    requires IsNearest(k, m)
    ensures SelectOptimalDt(Fin(m)) == Fin(Dts[k])
  {
    NearestIndexCharacterized(m, k);
  }

  /** select_pts_burst: points per burst, or 1.0 when an input is unusable. */
  function SelectPtsBurst(burst: Dbl, period: Dbl): (r: Dbl)
    ensures r.Fin?
    ensures IsFinite(burst) && IsFinite(period) && period.r > 0.0 ==> r.r == burst.r / period.r
    ensures !(IsFinite(burst) && IsFinite(period) && period.r > 0.0) ==> r.r == 1.0
  {
    if !IsFinite(burst) || !IsFinite(period) || Le(period, Fin(0.0)) then Fin(1.0)
    else Div(burst, period)
  }

  /** With q = period/dt at least 10.5, splitting the period into ten steps makes each longer than dt. */
  lemma CeilingStretchesStep(p: real, d: real)
    requires d > 0.0 && p / d >= 10.5
    ensures p / 10.0 > d
  {
    var q := p / d;
    assert p == q * d;
    assert q * d >= 10.5 * d;
  }

  /**
   * update_burst_settings: recompute the step size and the number of
   * sub-steps per tick from the burst duration and the tick period.
   */
  function UpdateBurstSettings(st: State): (r: State)
    // only the controller's outputs change
    ensures r == st.(dt := r.dt, sPoints := r.sPoints)
    ensures 1 <= r.sPoints <= MaxSteps
    // disabled timing: one sub-step, step size kept
    ensures Le(st.periodSeconds, Fin(0.0)) ==> r == st.(sPoints := 1)
    // otherwise a finite step no shorter than the table's smallest
    ensures !Le(st.periodSeconds, Fin(0.0)) ==> r.dt.Fin? && r.dt.r >= Dts[0]
    // burst mode: one sub-step with a table step size
    ensures !Le(st.periodSeconds, Fin(0.0)) && Gt(st.burstDuration, Fin(0.0)) ==> r.sPoints == 1 && r.dt.r in Dts
    ensures !Le(st.periodSeconds, Fin(0.0)) && Gt(st.burstDuration, Fin(0.0)) ==>
      r.dt == SelectOptimalDt(SelectPtsBurst(st.burstDuration, st.periodSeconds))
    // otherwise a table step size, or the period split into exactly MaxSteps steps
    ensures !Le(st.periodSeconds, Fin(0.0)) ==>
      r.dt.r in Dts || (r.sPoints == MaxSteps && st.periodSeconds == Fin(r.dt.r * 10.0))
  {
    if Le(st.periodSeconds, Fin(0.0)) then st.(sPoints := 1)
    else
      var dt := WorkingDt(st);
      if Gt(st.burstDuration, Fin(0.0)) then st.(dt := dt, sPoints := 1)
      else
        var timing := ContinuousTiming(st.periodSeconds, dt);
        st.(dt := timing.0, sPoints := timing.1)
  }

  /**
   * The step size the controller starts from: the looked-up one, or 0.0015
   * when that is not finite or not above DBL_MIN. The lookup always yields a
   * table value, so the fallback never fires.
   */
  function WorkingDt(st: State): (dt: Dbl)
    ensures dt == SelectOptimalDt(SelectPtsBurst(st.burstDuration, st.periodSeconds))
    ensures dt.Fin? && dt.r in Dts && dt.r >= Dts[0]
  {
    DblMinBelowTable();
    var selected := SelectOptimalDt(SelectPtsBurst(st.burstDuration, st.periodSeconds));
    if !IsFinite(selected) || Le(selected, Fin(DblMin)) then Fin(DefaultDt) else selected
  }

  /**
   * Continuous mode's step size and step count from the period and the
   * working step size dt: period/dt rounded, at least one; above MaxSteps,
   * MaxSteps steps of period/MaxSteps instead.
   */
  function ContinuousTiming(period: Dbl, dt: Dbl): (r: (Dbl, nat))
    requires dt.Fin? && dt.r >= Dts[0]
    ensures 1 <= r.1 <= MaxSteps
    ensures r.0.Fin? && r.0.r >= Dts[0]
    ensures r.0 == dt || (r.1 == MaxSteps && period == Fin(r.0.r * 10.0))
  {
    var desired := Div(period, dt);
    if !IsFinite(desired) || Le(desired, Fin(0.0)) then (dt, 1)
    else
      var rounded := LlRoundToSize(desired);
      var desiredSteps := if rounded == 0 then 1 else rounded;
      if desiredSteps > MaxSteps then
        LlRoundExceeds(desired.r, MaxSteps);
        CeilingStretchesStep(period.r, dt.r);
        (Div(period, Fin(10.0)), MaxSteps)
      else (dt, desiredSteps)
  }

  /** The controller's output depends only on its inputs: running it again changes nothing. */
  lemma UpdateBurstSettingsIdempotent(st: State)
    ensures UpdateBurstSettings(UpdateBurstSettings(st)) == UpdateBurstSettings(st)
  {
  }

  /**
   * Burst mode with finite timing: the step size is the table entry nearest
   * to burst/period points, with one sub-step per tick.
   */
  lemma BurstModeStep(st: State, k: nat)
    requires st.periodSeconds.Fin? && st.periodSeconds.r > 0.0
    requires st.burstDuration.Fin? && st.burstDuration.r > 0.0
    requires IsNearest(k, st.burstDuration.r / st.periodSeconds.r)
    ensures UpdateBurstSettings(st) == st.(dt := Fin(Dts[k]), sPoints := 1)
  {
    var key := st.burstDuration.r / st.periodSeconds.r;
    SelectOptimalDtIsNearest(key, k);
    assert WorkingDt(st) == Fin(Dts[k]);
  }

  /**
   * Continuous mode with a usable period: with d the looked-up table step and
   * q = period/d, a rounded q above ten switches to ten steps of period/10
   * (longer than d); otherwise d is kept and the step count is q rounded,
   * at least one.
   */
  lemma ContinuousModeSteps(st: State)
    requires st.periodSeconds.Fin? && st.periodSeconds.r > 0.0
    requires !Gt(st.burstDuration, Fin(0.0))
    ensures
      var d := SelectOptimalDt(SelectPtsBurst(st.burstDuration, st.periodSeconds)).r;
      var q := st.periodSeconds.r / d;
      var r := UpdateBurstSettings(st);
      && (q >= 10.5 ==> r.dt == Fin(st.periodSeconds.r / 10.0) && r.sPoints == 10 && r.dt.r > d)
      && (q < 10.5 ==> r.dt == Fin(d) && r.sPoints == (if (q + 0.5).Floor < 1 then 1 else (q + 0.5).Floor))
  {
    var selected := SelectOptimalDt(SelectPtsBurst(st.burstDuration, st.periodSeconds));
    assert WorkingDt(st) == selected;
    var p := st.periodSeconds.r;
    var d := selected.r;
    if p / d >= 10.5 {
      CeilingTiming(p, d);
      CeilingStretchesStep(p, d);
    } else {
      RoundedTiming(p, d);
    }
  }

  /** Continuous timing when period/dt rounds above MaxSteps: ten steps of a tenth of the period. */
  lemma CeilingTiming(p: real, d: real)
    requires p > 0.0 && d >= Dts[0] && p / d >= 10.5
    ensures ContinuousTiming(Fin(p), Fin(d)) == (Fin(p / 10.0), MaxSteps)
  {
    PositiveQuotient(p, d);
    FiniteArithmetic(Fin(p), Fin(d));
    FiniteArithmetic(Fin(p), Fin(10.0));
    LlRoundExceeds(p / d, MaxSteps);
  }

  /** Continuous timing when period/dt rounds to at most MaxSteps: dt kept, the rounded count, at least one. */
  lemma RoundedTiming(p: real, d: real)
    requires p > 0.0 && d >= Dts[0] && p / d < 10.5
    ensures
      var k := (p / d + 0.5).Floor;
      ContinuousTiming(Fin(p), Fin(d)) == (Fin(d), if k < 1 then 1 else k)
  {
    PositiveQuotient(p, d);
    FiniteArithmetic(Fin(p), Fin(d));
    LlRoundExceeds(p / d, MaxSteps);
    LlRoundSmall(p / d);
  }

  lemma PositiveQuotient(p: real, d: real)
    requires p > 0.0 && d > 0.0
    ensures p / d > 0.0
  {
  }

  lemma DblMinBelowTable()
    ensures 0.0 < DblMin < Dts[0]
  {
  }

  /**
   * Continuous mode covers the tick: the scheduled steps never fall short of
   * the period by more than half a step, and more than one step never
   * overshoots it by more than half a step.
   */
  lemma ContinuousModeCoversTick(st: State)
    requires st.periodSeconds.Fin? && st.periodSeconds.r > 0.0
    requires !Gt(st.burstDuration, Fin(0.0))
    ensures CoversTick(st.periodSeconds.r, UpdateBurstSettings(st).sPoints, UpdateBurstSettings(st).dt.r)
  {
    ContinuousModeSteps(st);
    var d := SelectOptimalDt(SelectPtsBurst(st.burstDuration, st.periodSeconds)).r;
    var p := st.periodSeconds.r;
    var r := UpdateBurstSettings(st);
    if p / d < 10.5 {
      RoundedStepsCoverPeriod(p, d);
      assert r.dt.r == d;
    } else {
      assert r.sPoints == 10 && r.dt.r == p / 10.0;
      TenStepsCoverPeriod(p);
    }
  }

  /** n steps of d fall short of p by at most half a step, and overshoot by more only when n is 1. */
  predicate CoversTick(p: real, n: nat, d: real) {
    && p <= n as real * d + d / 2.0
    && (n > 1 ==> n as real * d <= p + d / 2.0)
  }

  lemma TenStepsCoverPeriod(p: real)
    requires p > 0.0
    ensures CoversTick(p, 10, p / 10.0)
  {
  }

  /** q = p/d rounded half up, at least 1, steps of d cover p to within half a step. */
  lemma RoundedStepsCoverPeriod(p: real, d: real)
    requires p > 0.0 && d > 0.0
    ensures
      var k := (p / d + 0.5).Floor;
      CoversTick(p, if k < 1 then 1 else k, d)
  {
    var q := p / d;
    var k := (q + 0.5).Floor;
    var n := if k < 1 then 1 else k;
    assert k as real <= q + 0.5 < k as real + 1.0;
    assert p == q * d;
    // q is below k + 1/2, so p is below k steps plus half a step
    MulMono(q, k as real + 0.5, d);
    assert (k as real + 0.5) * d == k as real * d + d / 2.0;
    MulMono(k as real, n as real, d);
    if n > 1 {
      // k is at most q + 1/2, so k steps reach at most half a step past p
      MulMono(k as real, q + 0.5, d);
      assert (q + 0.5) * d == p + d / 2.0;
    }
  }

  lemma MulMono(a: real, b: real, d: real)
    requires a <= b && d > 0.0
    ensures a * d <= b * d
  {
  }

  /**
   * process: repair the step size and a non-finite state, then run the
   * clamped number of sub-steps, all with one parameter snapshot.
   */
  function Process(h: Option<State>, step: StepFn): (r: Option<Tick>)
    ensures r.Some? <==> h.Some?
    ensures h.Some? ==>
      var st := h.value;
      var t := r.value;
      // only the state variables and a repaired step size change
      && t.after == st.(x := t.after.x, y := t.after.y, z := t.after.z, dt := t.after.dt)
      // the step size used is finite and above DBL_MIN: kept when it already was, else 0.0015
      && t.after.dt.Fin? && t.after.dt.r > DblMin
      && (IsFinite(st.dt) && st.dt.r > DblMin ==> t.after.dt == st.dt)
      && (!(IsFinite(st.dt) && st.dt.r > DblMin) ==> t.after.dt == Fin(DefaultDt))
      // sub-step count is s_points limited to [1, 50]
      && |t.calls| == Clamp(st.sPoints, 1, TickStepLimit)
      // one chain of sub-steps with one snapshot, from the live state when it is finite and from
      // the configured initial condition when it is not
      && IsRun(step, if AllFinite(VarsOf(st)) then VarsOf(st) else CfgVarsOf(st),
               t.after.dt, CtxOf(st), t.calls, VarsOf(t.after))
  {
    match h
    case None => None
    case Some(st) =>
      DblMinBelowTable();
      var dt := if !IsFinite(st.dt) || Le(st.dt, Fin(DblMin)) then Fin(DefaultDt) else st.dt;
      var start := if !IsFinite(st.x) || !IsFinite(st.y) || !IsFinite(st.z) then CfgVarsOf(st) else VarsOf(st);
      var steps := if st.sPoints == 0 then 1 else if st.sPoints > TickStepLimit then TickStepLimit else st.sPoints;
      var ctx := CtxOf(st);
      var run := Integrate(step, start, dt, ctx, steps);
      Some(Tick(WithVars(st, run.0).(dt := dt), run.1))
  }

  /** The key_eq chain of set_config, before the controller runs. */
  function AssignConfig(st: State, key: string, value: Dbl): (r: State) {
    if KeyEq(key, "x") then st.(cfgX := value, x := value)
    else if KeyEq(key, "y") then st.(cfgY := value, y := value)
    else if KeyEq(key, "z") then st.(cfgZ := value, z := value)
    else if KeyEq(key, "e") then st.(e := value)
    else if KeyEq(key, "mu") then st.(mu := value)
    else if KeyEq(key, "s") then st.(s := value)
    else if KeyEq(key, "vh") then st.(vh := value)
    else if KeyEq(key, "burst_duration") then st.(burstDuration := value)
    else if KeyEq(key, "period_seconds") then st.(periodSeconds := value)
    else st
  }

  /**
   * set_config: store one configuration value by exact key, then rerun the
   * controller. x, y and z set both the live value and the fallback.
   */
  function SetConfig(h: Option<State>, key: Option<string>, value: Dbl): (r: Option<State>)
    ensures h.None? || key.None? ==> r == h
    ensures h.Some? && key.Some? ==> r.Some?
    ensures h.Some? && key == Some("x") ==> r.value == h.value.(x := value, cfgX := value, dt := r.value.dt, sPoints := r.value.sPoints)
    ensures h.Some? && key == Some("y") ==> r.value == h.value.(y := value, cfgY := value, dt := r.value.dt, sPoints := r.value.sPoints)
    ensures h.Some? && key == Some("z") ==> r.value == h.value.(z := value, cfgZ := value, dt := r.value.dt, sPoints := r.value.sPoints)
    ensures h.Some? && key == Some("e") ==> r.value == h.value.(e := value, dt := r.value.dt, sPoints := r.value.sPoints)
    ensures h.Some? && key == Some("mu") ==> r.value == h.value.(mu := value, dt := r.value.dt, sPoints := r.value.sPoints)
    ensures h.Some? && key == Some("s") ==> r.value == h.value.(s := value, dt := r.value.dt, sPoints := r.value.sPoints)
    ensures h.Some? && key == Some("vh") ==> r.value == h.value.(vh := value, dt := r.value.dt, sPoints := r.value.sPoints)
    ensures h.Some? && key == Some("burst_duration") ==>
      r.value == h.value.(burstDuration := value, dt := r.value.dt, sPoints := r.value.sPoints)
    ensures h.Some? && key == Some("period_seconds") ==>
      r.value == h.value.(periodSeconds := value, dt := r.value.dt, sPoints := r.value.sPoints)
    // an unknown key only lets the controller recompute
    ensures h.Some? && key.Some? && key.value !in ConfigKeys ==>
      r.value == h.value.(dt := r.value.dt, sPoints := r.value.sPoints)
    // the controller has settled on the new configuration
    ensures h.Some? && key.Some? ==> UpdateBurstSettings(r.value) == r.value
    ensures h.Some? && key.Some? && Le(r.value.periodSeconds, Fin(0.0)) ==> r.value.dt == h.value.dt
  {
    match (h, key)
    case (Some(st), Some(k)) =>
      var configured := AssignConfig(st, k, value);
      UpdateBurstSettingsIdempotent(configured);
      Some(UpdateBurstSettings(configured))
    case _ => h
  }

  /** set_input: only "i_syn" stores the synaptic input. */
  function SetInput(h: Option<State>, name: Option<string>, value: Dbl): (r: Option<State>)
    ensures h.Some? && name == Some("i_syn") ==> r == Some(h.value.(inputSyn := value))
    ensures !(h.Some? && name == Some("i_syn")) ==> r == h
  {
    match (h, name)
    case (Some(st), Some(n)) => if KeyEq(n, "i_syn") then Some(st.(inputSyn := value)) else h
    case _ => h
  }

  /** get_output: read a state variable or the membrane potential by exact name; 0.0 otherwise. */
  function GetOutput(h: Option<State>, name: Option<string>): (v: Dbl)
    ensures h.None? || name.None? ==> v == Fin(0.0)
    ensures h.Some? && (name == Some("x") || name == Some("Membrane potential (V)")) ==> v == h.value.x
    ensures h.Some? && name == Some("y") ==> v == h.value.y
    ensures h.Some? && name == Some("z") ==> v == h.value.z
    ensures h.Some? && name == Some("Membrane potential (mV)") ==> v == Mul(h.value.x, Fin(1000.0))
    ensures name.Some? && name.value !in OutputKeys ==> v == Fin(0.0)
  {
    match (h, name)
    case (Some(st), Some(n)) =>
      if KeyEq(n, "x") then st.x
      else if KeyEq(n, "y") then st.y
      else if KeyEq(n, "z") then st.z
      else if KeyEq(n, "Membrane potential (mV)") then Mul(st.x, Fin(1000.0))
      else if KeyEq(n, "Membrane potential (V)") then st.x
      else Fin(0.0)
    case _ => Fin(0.0)
  }

  /** Setting an unknown configuration key leaves every output as it was. */
  lemma UnknownKeyKeepsOutputs(h: Option<State>, key: string, value: Dbl, name: Option<string>)
    requires key !in ConfigKeys
    ensures GetOutput(SetConfig(h, Some(key), value), name) == GetOutput(h, name)
  {
  }

  /** A host call on a live plugin instance. */
  datatype HostOp = Configure(key: string, value: Dbl) | Input(name: string, value: Dbl) | Advance

  /** The state after a sequence of host calls. */
  function Run(st: State, ops: seq<HostOp>, step: StepFn): (r: State)
    decreases |ops|
  {
    if |ops| == 0 then st
    else
      var next := match ops[0]
        case Configure(k, v) => SetConfig(Some(st), Some(k), v).value
        case Input(n, v) => SetInput(Some(st), Some(n), v).value
        case Advance => Process(Some(st), step).value.after;
      Run(next, ops[1..], step)
  }

  /** What holds of every state the plugin can reach. */
  predicate Healthy(st: State) {
    st.dt.Fin? && st.dt.r >= Dts[0] && 1 <= st.sPoints <= MaxSteps
  }

  lemma {:induction false} RunStaysHealthy(st: State, ops: seq<HostOp>, step: StepFn)
    requires Healthy(st)
    ensures Healthy(Run(st, ops, step))
    decreases |ops|
  {
    if |ops| > 0 {
      DblMinBelowTable();
      var next := match ops[0]
        case Configure(k, v) => SetConfig(Some(st), Some(k), v).value
        case Input(n, v) => SetInput(Some(st), Some(n), v).value
        case Advance => Process(Some(st), step).value.after;
      assert Healthy(next);
      RunStaysHealthy(next, ops[1..], step);
    }
  }

  /**
   * From creation, whatever the host does, the step size stays finite and at
   * least 0.0005 and the controller's step count stays in [1, 10]; so the
   * step-size repair in process never fires and the 50-step ceiling is never
   * reached.
   */
  lemma ReachableIsHealthy(ops: seq<HostOp>, step: StepFn)
    ensures Healthy(Run(Initial, ops, step))
    ensures
      var st := Run(Initial, ops, step);
      var t := Process(Some(st), step).value;
      t.after.dt == st.dt && |t.calls| == st.sPoints
  {
    TableShape();
    RunStaysHealthy(Initial, ops, step);
    DblMinBelowTable();
  }

  /**
   * The initial state is not what the controller would choose: its default
   * timing (burst 1 s, period 1 ms, 1000 points per burst) selects the last
   * table entry, 0.1 s, not the initial 0.0015 s.
   */
  lemma InitialNotSettled()
    ensures UpdateBurstSettings(Initial).dt == Fin(0.1)
    ensures UpdateBurstSettings(Initial).sPoints == 1
  {
    NearestBelowTable(1000.0);
    SelectOptimalDtIsNearest(1000.0, 11);
  }

  /** Configuring the initial period again settles the controller on 0.1 s. */
  lemma InitialPeriodSettles()
    ensures SetConfig(Some(Initial), Some("period_seconds"), Fin(0.001)) == Some(Initial.(dt := Fin(0.1)))
  {
    assert AssignConfig(Initial, "period_seconds", Fin(0.001)) == Initial;
    InitialNotSettled();
  }

  /**
   * Continuing from there with burst 0 (continuous mode at a 1 ms period):
   * 0 points per burst again selects 0.1 s, 0.001/0.1 rounds to 0, and the
   * step count is raised to 1.
   */
  lemma ContinuousAtOneMillisecond()
    ensures SetConfig(Some(Initial.(dt := Fin(0.1))), Some("burst_duration"), Fin(0.0))
         == Some(Initial.(dt := Fin(0.1), burstDuration := Fin(0.0)))
  {
    var st1 := Initial.(dt := Fin(0.1));
    var st2 := st1.(burstDuration := Fin(0.0));
    assert AssignConfig(st1, "burst_duration", Fin(0.0)) == st2;
    OneMillisecondContinuousSettled(st2);
  }

  /** At a 1 ms period and burst 0, a 0.1 s step with one sub-step is already what the controller picks. */
  lemma OneMillisecondContinuousSettled(st: State)
    requires st.periodSeconds == Fin(0.001) && st.burstDuration == Fin(0.0) && st.dt == Fin(0.1)
    ensures UpdateBurstSettings(st) == st.(sPoints := 1)
  {
    ContinuousUnfold(st);
    assert SelectPtsBurst(st.burstDuration, st.periodSeconds) == Fin(0.0);
    LookupAtZero();
    OneMillisecondTiming();
  }

  /** Continuous mode with a positive period is the timing computed from the working step size. */
  lemma ContinuousUnfold(st: State)
    requires !Le(st.periodSeconds, Fin(0.0)) && !Gt(st.burstDuration, Fin(0.0))
    ensures
      var timing := ContinuousTiming(st.periodSeconds, WorkingDt(st));
      UpdateBurstSettings(st) == st.(dt := timing.0, sPoints := timing.1)
  {
  }

  /** 0.001/0.1 = 0.01 rounds to no steps, raised to one; the step size is kept. */
  lemma OneMillisecondTiming()
    ensures ContinuousTiming(Fin(0.001), Fin(0.1)) == (Fin(0.1), 1)
  {
    RoundedTiming(0.001, 0.1);
    assert (0.001 / 0.1 + 0.5).Floor == 0;
  }

  /**
   * Continuous mode with a NaN or +inf period: select_pts_burst falls back to
   * 1.0, which selects 0.1 s; the quotient period/dt is not finite, so the
   * controller schedules one sub-step of 0.1 s.
   */
  lemma NonFinitePeriodOneStep(st: State)
    requires st.periodSeconds.NaN? || st.periodSeconds.PosInf?
    requires !Gt(st.burstDuration, Fin(0.0))
    ensures UpdateBurstSettings(st) == st.(dt := Fin(0.1), sPoints := 1)
  {
    ContinuousUnfold(st);
    assert SelectPtsBurst(st.burstDuration, st.periodSeconds) == Fin(1.0);
    NearestBelowTable(1.0);
    SelectOptimalDtIsNearest(1.0, 11);
    assert !Div(st.periodSeconds, Fin(0.1)).Fin?;
  }

  /** Zero points per burst lies below every reference value: the last entry, 0.1 s. */
  lemma LookupAtZero()
    ensures SelectOptimalDt(Fin(0.0)) == Fin(0.1)
  {
    NearestBelowTable(0.0);
    SelectOptimalDtIsNearest(0.0, 11);
  }
}

=== FILE: cpp_plugin.dfy ===
/**
 * The C++ variant of the plugin (src/hindmarsh_rose_v2.cpp): the same
 * operations as the C variant with fewer guards. Keys are compared with
 * `strncmp` after a length check, select_optimal_dt and select_pts_burst
 * have no finiteness guard, update_burst_settings does not repair the step
 * size, and process repairs neither the step size nor the state.
 *
 * Only get_output checks for null pointers; the other entry points take a
 * live state and key.
 */
module CppPlugin {
  import opened Float
  import opened StepTable
  import opened NeuronState
  import CPlugin

  /**
   * `strncmp(a, b, n) == 0`: the first n characters agree, where comparison
   * stops early at a NUL both strings share.
   */
  function StrnEq(a: string, b: string, n: nat): (eq: bool)
    requires n <= |a| && n <= |b|
    decreases n
  {
    n == 0 || (a[0] == b[0] && (a[0] == '\0' || StrnEq(a[1..], b[1..], n - 1)))
  }

  predicate NoNul(s: string) {
    forall i | 0 <= i < |s| :: s[i] != '\0'
  }

  /** Against a NUL-free literal, strncmp over n characters compares exactly the first n. */
  lemma {:induction false} StrnEqPrefix(a: string, b: string, n: nat)
    requires n <= |a| && n <= |b|
    requires NoNul(b)
    ensures StrnEq(a, b, n) <==> a[..n] == b[..n]
    decreases n
  {
    if n > 0 {
      StrnEqPrefix(a[1..], b[1..], n - 1);
      assert a[..n] == [a[0]] + a[1..][..n - 1];
      assert b[..n] == [b[0]] + b[1..][..n - 1];
    }
  }

  /** `len == N && strncmp(key, lit, len) == 0`, with N the literal's length as the source spells it out. */
  function KeyMatches(key: string, lit: string): (b: bool)
    requires NoNul(lit)
    ensures b <==> key == lit
  {
    StrnEqPrefixWhole(key, lit);
    |key| == |lit| && StrnEq(key, lit, |lit|)
  }

  lemma StrnEqPrefixWhole(key: string, lit: string)
    requires NoNul(lit)
    ensures |key| == |lit| ==> (StrnEq(key, lit, |lit|) <==> key == lit)
  {
    if |key| == |lit| {
      StrnEqPrefix(key, lit, |lit|);
      assert key[..|lit|] == key && lit[..|lit|] == lit;
    }
  }

  /**
   * select_optimal_dt without the finiteness guard: always a table step.
   * A NaN or infinite key makes every comparison fail, so the first entry,
   * 0.0005 s, is kept.
   */
  function SelectOptimalDt(m: Dbl): (dt: Dbl)
    ensures dt.Fin? && dt.r in Dts && dt.r >= 0.0005
    ensures !m.Fin? ==> dt == Fin(Dts[0])
  {
    TableShape();
    NearestIndexNonFinite(m);
    Fin(Dts[NearestIndex(m)])
  }

  /** For a finite key, the step size of the nearest entry. */
  lemma SelectOptimalDtIsNearest(m: real, k: nat)
    requires IsNearest(k, m)
    ensures SelectOptimalDt(Fin(m)) == Fin(Dts[k])
  {
    NearestIndexCharacterized(m, k);
  }

  /** select_pts_burst guarding only a non-positive period: a NaN period passes through as NaN. */
  function SelectPtsBurst(burst: Dbl, period: Dbl): (r: Dbl)
    ensures Le(period, Fin(0.0)) ==> r == Fin(1.0)
    ensures IsFinite(burst) && IsFinite(period) && period.r > 0.0 ==> r == Fin(burst.r / period.r)
    ensures period.NaN? ==> r.NaN?
  {
    if Le(period, Fin(0.0)) then Fin(1.0) else Div(burst, period)
  }

  /** update_burst_settings without the C variant's finiteness checks. */
  function UpdateBurstSettings(st: State): (r: State)
    ensures r == st.(dt := r.dt, sPoints := r.sPoints)
    ensures 1 <= r.sPoints <= CPlugin.MaxSteps
    ensures Le(st.periodSeconds, Fin(0.0)) ==> r == st.(sPoints := 1)
    // burst mode: one sub-step of the step size looked up for burst/period
    ensures !Le(st.periodSeconds, Fin(0.0)) && Gt(st.burstDuration, Fin(0.0)) ==>
      r.sPoints == 1 && r.dt == SelectOptimalDt(SelectPtsBurst(st.burstDuration, st.periodSeconds))
    ensures !Le(st.periodSeconds, Fin(0.0)) && Gt(st.burstDuration, Fin(0.0)) ==> r.dt.Fin? && r.dt.r in Dts
    // a table step size, or ten steps of a tenth of the period, whatever the period is
    ensures !Le(st.periodSeconds, Fin(0.0)) ==>
      (r.dt.Fin? && r.dt.r in Dts) || (r.sPoints == CPlugin.MaxSteps && r.dt == Div(st.periodSeconds, Fin(10.0)))
    // a NaN or +inf period in continuous mode leaves a step size that is not finite
    ensures (st.periodSeconds.NaN? || st.periodSeconds.PosInf?) && !Gt(st.burstDuration, Fin(0.0)) ==>
      !r.dt.Fin? && r.sPoints == CPlugin.MaxSteps
  {
    if Le(st.periodSeconds, Fin(0.0)) then st.(sPoints := 1)
    else
      var dt := SelectOptimalDt(SelectPtsBurst(st.burstDuration, st.periodSeconds));
      if Gt(st.burstDuration, Fin(0.0)) then st.(dt := dt, sPoints := 1)
      else
        var rounded := LlRoundToSize(Div(st.periodSeconds, dt));
        var desiredSteps := if rounded == 0 then 1 else rounded;
        if desiredSteps > CPlugin.MaxSteps then st.(dt := Div(st.periodSeconds, Fin(10.0)), sPoints := CPlugin.MaxSteps)
        else st.(dt := dt, sPoints := desiredSteps)
  }

  lemma UpdateBurstSettingsIdempotent(st: State)
    ensures UpdateBurstSettings(UpdateBurstSettings(st)) == UpdateBurstSettings(st)
  {
  }

  /**
   * Burst mode with finite timing: the step size is the table entry nearest
   * to burst/period points, with one sub-step per tick.
   */
  lemma BurstModeStep(st: State, k: nat)
    requires st.periodSeconds.Fin? && st.periodSeconds.r > 0.0
    requires st.burstDuration.Fin? && st.burstDuration.r > 0.0
    requires IsNearest(k, st.burstDuration.r / st.periodSeconds.r)
    ensures UpdateBurstSettings(st) == st.(dt := Fin(Dts[k]), sPoints := 1)
  {
    var key := st.burstDuration.r / st.periodSeconds.r;
    SelectOptimalDtIsNearest(key, k);
  }

  /**
   * Wherever burst duration and period are finite, the missing guards make
   * no difference: the C++ controller computes what the C controller does.
   */
  lemma AgreesWithCOnFiniteTiming(st: State)
    requires IsFinite(st.burstDuration) && IsFinite(st.periodSeconds)
    ensures UpdateBurstSettings(st) == CPlugin.UpdateBurstSettings(st)
  {
    if st.periodSeconds.r > 0.0 {
      var pts := SelectPtsBurst(st.burstDuration, st.periodSeconds);
      assert pts == CPlugin.SelectPtsBurst(st.burstDuration, st.periodSeconds);
      var dt := SelectOptimalDt(pts);
      assert dt == CPlugin.SelectOptimalDt(pts);
      CPlugin.DblMinBelowTable();
      assert !Le(dt, Fin(DblMin));
      if !Gt(st.burstDuration, Fin(0.0)) {
        CPlugin.PositiveQuotient(st.periodSeconds.r, dt.r);
        assert Div(st.periodSeconds, dt) == Fin(st.periodSeconds.r / dt.r);
      }
    }
  }

  /** With a non-finite key, the two variants select different step sizes. */
  lemma DiffersFromCOnNonFiniteKey(m: Dbl)
    requires !m.Fin?
    ensures SelectOptimalDt(m) == Fin(0.0005) && CPlugin.SelectOptimalDt(m) == Fin(0.0015)
  {
  }

  /** process: the clamped number of sub-steps with one parameter snapshot; no repair of dt or state. */
  function Process(st: State, step: StepFn): (t: Tick)
    ensures t.after == WithVars(st, VarsOf(t.after))
    ensures |t.calls| == Clamp(st.sPoints, 1, CPlugin.TickStepLimit)
    ensures IsRun(step, VarsOf(st), st.dt, CtxOf(st), t.calls, VarsOf(t.after))
  {
    var steps := if st.sPoints == 0 then 1 else if st.sPoints > CPlugin.TickStepLimit then CPlugin.TickStepLimit else st.sPoints;
    var run := Integrate(step, VarsOf(st), st.dt, CtxOf(st), steps);
    Tick(WithVars(st, run.0), run.1)
  }

  /** The length-checked strncmp chain of set_config, before the controller runs. */
  function AssignConfig(st: State, key: string, value: Dbl): (r: State) {
    if KeyMatches(key, "x") then st.(cfgX := value, x := value)
    else if KeyMatches(key, "y") then st.(cfgY := value, y := value)
    else if KeyMatches(key, "z") then st.(cfgZ := value, z := value)
    else if KeyMatches(key, "e") then st.(e := value)
    else if KeyMatches(key, "mu") then st.(mu := value)
    else if KeyMatches(key, "s") then st.(s := value)
    else if KeyMatches(key, "vh") then st.(vh := value)
    else if KeyMatches(key, "burst_duration") then st.(burstDuration := value)
    else if KeyMatches(key, "period_seconds") then st.(periodSeconds := value)
    else st
  }

  /** set_config: one field by exact key (x, y, z also set the fallback), then the controller. */
  function SetConfig(st: State, key: string, value: Dbl): (r: State)
    ensures key == "x" ==> r == st.(x := value, cfgX := value, dt := r.dt, sPoints := r.sPoints)
    ensures key == "y" ==> r == st.(y := value, cfgY := value, dt := r.dt, sPoints := r.sPoints)
    ensures key == "z" ==> r == st.(z := value, cfgZ := value, dt := r.dt, sPoints := r.sPoints)
    ensures key == "e" ==> r == st.(e := value, dt := r.dt, sPoints := r.sPoints)
    ensures key == "mu" ==> r == st.(mu := value, dt := r.dt, sPoints := r.sPoints)
    ensures key == "s" ==> r == st.(s := value, dt := r.dt, sPoints := r.sPoints)
    ensures key == "vh" ==> r == st.(vh := value, dt := r.dt, sPoints := r.sPoints)
    ensures key == "burst_duration" ==> r == st.(burstDuration := value, dt := r.dt, sPoints := r.sPoints)
    ensures key == "period_seconds" ==> r == st.(periodSeconds := value, dt := r.dt, sPoints := r.sPoints)
    ensures key !in CPlugin.ConfigKeys ==> r == st.(dt := r.dt, sPoints := r.sPoints)
    ensures UpdateBurstSettings(r) == r
    ensures Le(r.periodSeconds, Fin(0.0)) ==> r.dt == st.dt
  {
    var configured := AssignConfig(st, key, value);
    UpdateBurstSettingsIdempotent(configured);
    UpdateBurstSettings(configured)
  }

  /** set_input: only "i_syn" stores the synaptic input. */
  function SetInput(st: State, name: string, value: Dbl): (r: State)
    ensures name == "i_syn" ==> r == st.(inputSyn := value)
    ensures name != "i_syn" ==> r == st
  {
    if KeyMatches(name, "i_syn") then st.(inputSyn := value) else st
  }

  /** get_output: x, y, z and the membrane potential by exact name; 0.0 otherwise or on null. */
  function GetOutput(h: Option<State>, name: Option<string>): (v: Dbl)
    ensures h.None? || name.None? ==> v == Fin(0.0)
    ensures h.Some? && (name == Some("x") || name == Some("Membrane potential (V)")) ==> v == h.value.x
    ensures h.Some? && name == Some("y") ==> v == h.value.y
    ensures h.Some? && name == Some("z") ==> v == h.value.z
    ensures h.Some? && name == Some("Membrane potential (mV)") ==> v == Mul(h.value.x, Fin(1000.0))
    ensures name.Some? && name.value !in CPlugin.OutputKeys ==> v == Fin(0.0)
  {
    match (h, name)
    case (Some(st), Some(n)) =>
      if KeyMatches(n, "x") then st.x
      else if KeyMatches(n, "y") then st.y
      else if KeyMatches(n, "z") then st.z
      else if KeyMatches(n, "Membrane potential (V)") then st.x
      else if KeyMatches(n, "Membrane potential (mV)") then Mul(st.x, Fin(1000.0))
      else Fin(0.0)
    case _ => Fin(0.0)
  }

  /** The C and C++ outputs agree on every state and name. */
  lemma OutputAgreesWithC(h: Option<State>, name: Option<string>)
    ensures GetOutput(h, name) == CPlugin.GetOutput(h, name)
  {
  }

  /** The state after a sequence of host calls, of the same kinds as for the C variant. */
  function Run(st: State, ops: seq<CPlugin.HostOp>, step: StepFn): (r: State)
    decreases |ops|
  {
    if |ops| == 0 then st
    else
      var next := match ops[0]
        case Configure(k, v) => SetConfig(st, k, v)
        case Input(n, v) => SetInput(st, n, v)
        case Advance => Process(st, step).after;
      Run(next, ops[1..], step)
  }

  lemma {:induction false} RunKeepsStepCount(st: State, ops: seq<CPlugin.HostOp>, step: StepFn)
    requires 1 <= st.sPoints <= CPlugin.MaxSteps
    ensures 1 <= Run(st, ops, step).sPoints <= CPlugin.MaxSteps
    decreases |ops|
  {
    if |ops| > 0 {
      var next := match ops[0]
        case Configure(k, v) => SetConfig(st, k, v)
        case Input(n, v) => SetInput(st, n, v)
        case Advance => Process(st, step).after;
      RunKeepsStepCount(next, ops[1..], step);
    }
  }

  /** From creation the step count stays in [1, 10], so a tick runs exactly s_points sub-steps. */
  lemma ReachableTickSteps(ops: seq<CPlugin.HostOp>, step: StepFn)
    ensures
      var st := Run(Initial, ops, step);
      1 <= st.sPoints <= CPlugin.MaxSteps && |Process(st, step).calls| == st.sPoints
  {
    RunKeepsStepCount(Initial, ops, step);
  }

  /**
   * Configuring continuous mode and then a NaN period leaves a NaN step size,
   * and the next tick hands it to the integrator ten times.
   */
  lemma NaNPeriodReachesIntegrator(step: StepFn)
    ensures
      var st := Run(Initial, [CPlugin.Configure("burst_duration", Fin(0.0)), CPlugin.Configure("period_seconds", NaN)], step);
      var t := Process(st, step);
      st.dt == NaN && |t.calls| == CPlugin.MaxSteps && t.calls[0].dt == NaN
  {
    var st1 := SetConfig(Initial, "burst_duration", Fin(0.0));
    var st2 := SetConfig(st1, "period_seconds", NaN);
    RunTwoConfigures(Initial, "burst_duration", Fin(0.0), "period_seconds", NaN, step);
    assert st2 == UpdateBurstSettings(AssignConfig(st1, "period_seconds", NaN));
  }

  /**
   * The same with a +inf period: the quotient is +inf, its rounding exceeds
   * ten, and the step size becomes +inf/10 = +inf.
   */
  lemma InfPeriodReachesIntegrator(step: StepFn)
    ensures
      var st := Run(Initial, [CPlugin.Configure("burst_duration", Fin(0.0)), CPlugin.Configure("period_seconds", PosInf)], step);
      var t := Process(st, step);
      st.dt == PosInf && |t.calls| == CPlugin.MaxSteps && t.calls[0].dt == PosInf
  {
    var st1 := SetConfig(Initial, "burst_duration", Fin(0.0));
    var st2 := SetConfig(st1, "period_seconds", PosInf);
    RunTwoConfigures(Initial, "burst_duration", Fin(0.0), "period_seconds", PosInf, step);
    assert st1.burstDuration == Fin(0.0);
    assert st2 == UpdateBurstSettings(AssignConfig(st1, "period_seconds", PosInf));
    InfPeriodSettings(AssignConfig(st1, "period_seconds", PosInf));
    TenStepTick(st2, step);
  }

  /** Continuous mode with a +inf period: ten sub-steps of +inf. */
  lemma InfPeriodSettings(st: State)
    requires st.periodSeconds == PosInf && !Gt(st.burstDuration, Fin(0.0))
    ensures UpdateBurstSettings(st).dt == PosInf && UpdateBurstSettings(st).sPoints == CPlugin.MaxSteps
  {
    assert Div(PosInf, Fin(10.0)) == PosInf;
  }

  /** Two configuration calls in a row. */
  lemma RunTwoConfigures(st: State, k1: string, v1: Dbl, k2: string, v2: Dbl, step: StepFn)
    ensures Run(st, [CPlugin.Configure(k1, v1), CPlugin.Configure(k2, v2)], step) == SetConfig(SetConfig(st, k1, v1), k2, v2)
  {
    var ops := [CPlugin.Configure(k1, v1), CPlugin.Configure(k2, v2)];
    var st1 := SetConfig(st, k1, v1);
    assert ops[1..] == [CPlugin.Configure(k2, v2)];
    assert Run(st, ops, step) == Run(st1, [CPlugin.Configure(k2, v2)], step);
    assert [CPlugin.Configure(k2, v2)][1..] == [];
    assert Run(st1, [CPlugin.Configure(k2, v2)], step) == Run(SetConfig(st1, k2, v2), [], step);
  }

  /** A tick at ten scheduled sub-steps hands the stored step size to the integrator ten times. */
  lemma TenStepTick(st: State, step: StepFn)
    requires st.sPoints == CPlugin.MaxSteps
    ensures |Process(st, step).calls| == CPlugin.MaxSteps && Process(st, step).calls[0].dt == st.dt
  {
  }
}

=== FILE: float.dfy ===
/**
 * IEEE-754 doubles as the plugin's guards see them.
 *
 * A finite double is held exactly as a real; the two infinities and NaN are
 * kept apart because the plugin's comparisons treat them differently
 * (`-inf <= 0.0` holds, `NaN <= 0.0` does not). Rounding, overflow and the
 * sign of zero are not modelled: every zero is `+0.0`.
 */
module Float {

  datatype Dbl = Fin(r: real) | PosInf | NegInf | NaN

  /** C `isfinite`, Rust `f64::is_finite`. */
  predicate IsFinite(d: Dbl) {
    d.Fin?
  }

  /** IEEE `<=`: false as soon as either side is NaN. */
  predicate Le(a: Dbl, b: Dbl) {
    match (a, b)
    case (NaN, _) => false
    case (_, NaN) => false
    case (NegInf, _) => true
    case (_, PosInf) => true
    case (Fin(p), Fin(q)) => p <= q
    case (_, _) => false
  }

  /** IEEE `<`. */
  predicate Lt(a: Dbl, b: Dbl) {
    Le(a, b) && a != b
  }

  /** IEEE `>`. */
  predicate Gt(a: Dbl, b: Dbl) {
    Lt(b, a)
  }

  /** IEEE `==`: NaN equals nothing, not even itself. */
  predicate Eq(a: Dbl, b: Dbl) {
    a == b && !a.NaN?
  }

  /** -1, 0 or 1; NaN gets 0. */
  function Sign(a: Dbl): (s: int) {
    match a
    case Fin(p) => if p > 0.0 then 1 else if p < 0.0 then -1 else 0
    case PosInf => 1
    case NegInf => -1
    case NaN => 0
  }

  function Neg(a: Dbl): (r: Dbl) {
    match a
    case Fin(p) => Fin(-p)
    case PosInf => NegInf
    case NegInf => PosInf
    case NaN => NaN
  }

  function Add(a: Dbl, b: Dbl): (r: Dbl) {
    match (a, b)
    case (NaN, _) => NaN
    case (_, NaN) => NaN
    case (Fin(p), Fin(q)) => Fin(p + q)
    case (PosInf, NegInf) => NaN
    case (NegInf, PosInf) => NaN
    case (PosInf, _) => PosInf
    case (NegInf, _) => NegInf
    case (_, PosInf) => PosInf
    case (_, NegInf) => NegInf
  }

  function Sub(a: Dbl, b: Dbl): (r: Dbl) {
    Add(a, Neg(b))
  }

  /** C `fabs`, C++ `std::abs`. */
  function Abs(a: Dbl): (r: Dbl) {
    match a
    case Fin(p) => Fin(if p < 0.0 then -p else p)
    case NaN => NaN
    case _ => PosInf
  }

  function Mul(a: Dbl, b: Dbl): (r: Dbl) {
    match (a, b)
    case (NaN, _) => NaN
    case (_, NaN) => NaN
    case (Fin(p), Fin(q)) => Fin(p * q)
    case (_, _) =>
      // at least one infinity: zero times infinity is NaN
      if Sign(a) == 0 || Sign(b) == 0 then NaN
      else if Sign(a) == Sign(b) then PosInf
      else NegInf
  }

  function Div(a: Dbl, b: Dbl): (r: Dbl) {
    match (a, b)
    case (NaN, _) => NaN
    case (_, NaN) => NaN
    case (Fin(p), Fin(q)) =>
      if q != 0.0 then Fin(p / q)
      else if p == 0.0 then NaN
      else if p > 0.0 then PosInf
      else NegInf
    case (Fin(_), _) => Fin(0.0)
    case (_, Fin(q)) =>
      // an infinity over a finite value keeps its sign unless the divisor is negative
      if (Sign(a) == 1) == (q >= 0.0) then PosInf else NegInf
    case (_, _) => NaN
  }

  /** On finite operands with a non-zero divisor the operations are exact. */
  lemma FiniteArithmetic(a: Dbl, b: Dbl)
    ensures a.Fin? && b.Fin? ==> Mul(a, b) == Fin(a.r * b.r)
    ensures a.Fin? && b.Fin? && b.r != 0.0 ==> Div(a, b) == Fin(a.r / b.r)
  {
  }

  /** C `DBL_MIN`, the smallest positive normal double: 2^-1022. */
  const DblMin: real := 1.0 / (0x4000000000000000000000000000000000000000000000000000000000000000000000000000000000000000000000000000000000000000000000000000000000000000000000000000000000000000000000000000000000000000000000000000000000000000000000000000000000000000000000000000000000000000 as real)

  /** Rust `f64::EPSILON`: 2^-52. */
  const Epsilon: real := 1.0 / 4503599627370496.0

  const Two63: int := 0x8000_0000_0000_0000
  const Two64: int := 0x1_0000_0000_0000_0000

  /** Rounding to the nearest integer, halves away from zero (C `llround`, Rust `f64::round`). */
  function RoundHalfAway(q: real): (n: int) {
    if q >= 0.0 then (q + 0.5).Floor else -((-q + 0.5).Floor)
  }

  /**
   * `(size_t)llround(d)` on an LP64 target. An argument whose rounding does not
   * fit a `long long` (including NaN and the infinities) gives LLONG_MIN, the
   * x86-64 result, which the cast turns into 2^63.
   */
  function LlRoundToSize(d: Dbl): (n: nat)
    ensures n < Two64
  {
    match d
    case Fin(q) =>
      var k := RoundHalfAway(q);
      if -Two63 <= k < Two63 then (if k >= 0 then k else Two64 + k) else Two63
    case _ => Two63
  }

  /** Rust `d.round() as usize` on a 64-bit target: the cast saturates and sends NaN to 0. */
  function RoundToUsize(d: Dbl): (n: nat)
    ensures n < Two64
    // saturation: +inf gives the largest usize; NaN, -inf and anything below one half give 0
    ensures d.PosInf? ==> n == Two64 - 1
    ensures d.NaN? || d.NegInf? ==> n == 0
    ensures d.Fin? && d.r < 0.5 ==> n == 0
    // in range, halves round up
    ensures d.Fin? && d.r >= 0.0 && d.r + 0.5 < Two64 as real ==> n == (d.r + 0.5).Floor
  {
    match d
    case Fin(q) =>
      var k := RoundHalfAway(q);
      if k <= 0 then 0 else if k < Two64 then k else Two64 - 1
    case PosInf => Two64 - 1
    case _ => 0
  }

  /** For a positive quotient, `llround` exceeds a bound below 2^62 exactly when the quotient reaches that bound plus a half. */
  lemma LlRoundExceeds(q: real, m: nat)
    requires q > 0.0 && m < 0x4000_0000_0000_0000
    ensures LlRoundToSize(Fin(q)) > m <==> q >= m as real + 0.5
  {
    var k := (q + 0.5).Floor;
    assert k as real <= q + 0.5 < k as real + 1.0;
    if k < Two63 {
      assert LlRoundToSize(Fin(q)) == k;
    } else {
      assert LlRoundToSize(Fin(q)) == Two63;
    }
  }

  /** Below the out-of-range region, `llround` of a positive quotient is the round-half-up integer. */
  lemma LlRoundSmall(q: real)
    requires 0.0 < q < 0x4000_0000_0000_0000 as real
    ensures LlRoundToSize(Fin(q)) == (q + 0.5).Floor
    ensures (q + 0.5).Floor as real <= q + 0.5 < (q + 0.5).Floor as real + 1.0
  {
  }
}

=== FILE: neuron_state.dfy ===
/**
 * The neuron record shared by the C, C++ and Rust variants, its defaults,
 * the parameter snapshot handed to the integrator, and the sub-step loop
 * around the external fourth-order Runge-Kutta primitive.
 */
module NeuronState {
  import opened Float
  import opened StepTable

  datatype Option<T> = None | Some(value: T)

  /**
   * One neuron: live state (x, y, z), synaptic input, dynamics parameters,
   * the controller's inputs (burstDuration, periodSeconds) and outputs
   * (dt, sPoints), and the last configured initial condition (cfgX/Y/Z).
   * sPoints is a `size_t`/`usize` in the source.
   */
  datatype State = State(
    x: Dbl, y: Dbl, z: Dbl,
    inputSyn: Dbl,
    e: Dbl, mu: Dbl, s: Dbl, vh: Dbl,
    dt: Dbl,
    burstDuration: Dbl, periodSeconds: Dbl,
    sPoints: nat,
    cfgX: Dbl, cfgY: Dbl, cfgZ: Dbl)

  /** The three integrated variables, as the integrator's buffer holds them. */
  datatype Vars = Vars(x: Dbl, y: Dbl, z: Dbl)

  /** The parameter snapshot the derivative callback reads. */
  datatype Ctx = Ctx(inputSyn: Dbl, e: Dbl, mu: Dbl, s: Dbl, vh: Dbl)

  /** One call to the Runge-Kutta primitive: the buffer it was given, the step size and the context. */
  datatype Call = Call(vars: Vars, dt: Dbl, ctx: Ctx)

  /** The result of one host tick: the state afterwards and the integrator calls made, in order. */
  datatype Tick = Tick(after: State, calls: seq<Call>)

  /**
   * One fixed-step Runge-Kutta advance of the Hindmarsh-Rose system. It is an
   * external library routine, so the model takes it as a parameter.
   */
  type StepFn = (Vars, Dbl, Ctx) -> Vars

  const InitX: real := -0.9013747551021072
  const InitY: real := -3.15948829665501
  const InitZ: real := 3.247826955037619

  /** The state every variant is created in. */
  const Initial: State := State(
    Fin(InitX), Fin(InitY), Fin(InitZ),
    Fin(0.0),
    Fin(3.0), Fin(0.0021), Fin(4.0), Fin(1.0),
    Fin(DefaultDt),
    Fin(1.0), Fin(0.001),
    1,
    Fin(InitX), Fin(InitY), Fin(InitZ))

  /**
   * The created state: finite variables equal to their configured fallback,
   * one sub-step of 0.0015 s, a 1 s burst over a 1 ms period, and no input.
   */
  lemma InitialState()
    ensures VarsOf(Initial) == CfgVarsOf(Initial) && AllFinite(VarsOf(Initial))
    ensures Initial.dt == Fin(DefaultDt) && Initial.sPoints == 1
    ensures Initial.burstDuration == Fin(1.0) && Initial.periodSeconds == Fin(0.001)
    ensures Initial.inputSyn == Fin(0.0)
  {
  }

  function VarsOf(st: State): (v: Vars) {
    Vars(st.x, st.y, st.z)
  }

  function CfgVarsOf(st: State): (v: Vars) {
    Vars(st.cfgX, st.cfgY, st.cfgZ)
  }

  function CtxOf(st: State): (c: Ctx) {
    Ctx(st.inputSyn, st.e, st.mu, st.s, st.vh)
  }

  function WithVars(st: State, v: Vars): (r: State) {
    st.(x := v.x, y := v.y, z := v.z)
  }

  predicate AllFinite(v: Vars) {
    IsFinite(v.x) && IsFinite(v.y) && IsFinite(v.z)
  }

  /** `n` limited to `[lo, hi]`. */
  function Clamp(n: nat, lo: nat, hi: nat): (r: nat)
    requires lo <= hi
    ensures lo <= r <= hi
    ensures lo <= n <= hi ==> r == n
  {
    if n < lo then lo else if n > hi then hi else n
  }

  /**
   * The derivative the plugin hands to the integrator, in exact arithmetic.
   * The integrator is abstract here, so this only documents the system.
   */
  function Deriv(x: real, y: real, z: real, c: Ctx): (d: (real, real, real))
    requires c.inputSyn.Fin? && c.e.Fin? && c.mu.Fin? && c.s.Fin? && c.vh.Fin?
  {
    (y + 3.0 * x * x - x * x * x - c.vh.r * z + c.e.r - c.inputSyn.r,
     1.0 - 5.0 * x * x - y,
     c.mu.r * (-c.vh.r * z + c.s.r * (x + 1.6)))
  }

  function Apply(step: StepFn, c: Call): (v: Vars) {
    step(c.vars, c.dt, c.ctx)
  }

  /**
   * `calls` is a run of sub-steps from v0 to vEnd: each call uses the same
   * dt and ctx, the first starts from v0, each later one starts where the
   * previous ended, and vEnd is where the last ended.
   */
  predicate IsRun(step: StepFn, v0: Vars, dt: Dbl, ctx: Ctx, calls: seq<Call>, vEnd: Vars) {
    && (forall i | 0 <= i < |calls| :: calls[i].dt == dt && calls[i].ctx == ctx)
    && (forall i | 0 < i < |calls| :: calls[i].vars == Apply(step, calls[i - 1]))
    && (|calls| == 0 ==> vEnd == v0)
    && (|calls| > 0 ==> calls[0].vars == v0 && vEnd == Apply(step, calls[|calls| - 1]))
  }

  /** n sub-steps of size dt from v under one parameter snapshot ctx. */
  function Integrate(step: StepFn, v: Vars, dt: Dbl, ctx: Ctx, n: nat): (r: (Vars, seq<Call>))
    ensures |r.1| == n
    ensures IsRun(step, v, dt, ctx, r.1, r.0)
    decreases n
  {
    if n == 0 then (v, [])
    else
      var rest := Integrate(step, step(v, dt, ctx), dt, ctx, n - 1);
      (rest.0, [Call(v, dt, ctx)] + rest.1)
  }
}

=== FILE: rust_plugin.dfy ===
/**
 * The Rust variant of the plugin (src/lib.rs). It keeps the record and the
 * defaults of the C variant but differs in its controller and entry points:
 *
 * - select_optimal_dt returns the first table entry whose reference value is
 *   at or below the key, not the nearest one;
 * - continuous mode keeps the configured step size and runs as many sub-steps
 *   as the period needs, with no ceiling of ten;
 * - configuration values are JSON values, "dt" is configurable, x/y/z set only
 *   the configured initial condition, and every call resets the live state to
 *   it before the controller runs;
 * - process_tick receives the host period and refreshes the controller when it
 *   moved by more than f64::EPSILON, and bounds a tick to 10 000 sub-steps.
 */
module RustPlugin {
  import opened Float
  import opened StepTable
  import opened NeuronState
  import CPlugin

  /** process_tick's bound on sub-steps per tick. */
  const TickStepLimit: nat := 10000

  const ConfigKeys: set<string> := {"x", "y", "z", "e", "mu", "s", "vh", "dt", "burst_duration", "period_seconds"}
  const PotentialKeys: set<string> := {"Membrane potential (V)", "Membrane potential (mV)"}
  const InternalKeys: set<string> := {"x", "y", "z"}

  /**
   * A configuration value. A serde_json number always holds a finite f64;
   * every other JSON value has no f64 reading.
   */
  datatype JsonValue = JsonNumber(n: real) | JsonOther

  /** `Value::as_f64`. */
  function AsF64(v: JsonValue): (r: Option<Dbl>)
    ensures r.Some? <==> v.JsonNumber?
    ensures r.Some? ==> IsFinite(r.value)
  {
    match v
    case JsonNumber(n) => Some(Fin(n))
    case JsonOther => None
  }

  /** Rust `.max(1)` on a `usize`. */
  function AtLeastOne(n: nat): (r: nat)
    ensures r >= 1
    ensures n >= 1 ==> r == n
  {
    if n < 1 then 1 else n
  }

  // ---------------------------------------------------------------------------
  // Step-size lookup
  // ---------------------------------------------------------------------------

  /**
   * Entry k is the first one whose reference value is at or below m; when no
   * entry is, k is the last entry.
   */
  predicate IsThreshold(k: nat, m: real) {
    && k < |Pts|
    && (forall j | 0 <= j < k :: Pts[j] > m)
    && (k == |Pts| - 1 || Pts[k] <= m)
  }

  /** The loop of select_optimal_dt from index i on; |Pts| when no entry matches. */
  function ScanThreshold(m: Dbl, i: nat): (k: nat)
    requires i <= |Pts|
    ensures i <= k <= |Pts|
    decreases |Pts| - i
  {
    if i == |Pts| then |Pts|
    else if Le(Fin(Pts[i]), m) then i
    else ScanThreshold(m, i + 1)
  }

  /** The table index select_optimal_dt returns the step size of. */
  function ThresholdIndex(m: Dbl): (k: nat)
    ensures k < |Pts|
  {
    var k := ScanThreshold(m, 0);
    if k == |Pts| then |Pts| - 1 else k
  }

  lemma {:induction false} ScanThresholdNoMatch(m: Dbl, i: nat)
    requires i <= |Pts|
    ensures m.NaN? || m.NegInf? ==> ScanThreshold(m, i) == |Pts|
    decreases |Pts| - i
  {
    if i < |Pts| {
      ScanThresholdNoMatch(m, i + 1);
    }
  }

  /**
   * select_optimal_dt: always a table step size. No reference value is at or
   * below NaN or -inf, so those give the last (largest) step; every reference
   * value is below +inf, so that gives the first (smallest).
   */
  function SelectOptimalDt(m: Dbl): (dt: Dbl)
    ensures dt.Fin? && dt.r in Dts
    ensures m.NaN? || m.NegInf? ==> dt == Fin(Dts[|Dts| - 1])
    ensures m.PosInf? ==> dt == Fin(Dts[0])
  {
    ScanThresholdNoMatch(m, 0);
    Fin(Dts[ThresholdIndex(m)])
  }

  lemma {:induction false} ScanThresholdFinds(m: real, i: nat)
    requires i <= |Pts|
    requires forall j | 0 <= j < i :: Pts[j] > m
    ensures ScanThreshold(Fin(m), i) == |Pts| ==> forall j | 0 <= j < |Pts| :: Pts[j] > m
    ensures ScanThreshold(Fin(m), i) < |Pts| ==> IsThreshold(ScanThreshold(Fin(m), i), m)
    decreases |Pts| - i
  {
    if i < |Pts| && Pts[i] > m {
      ScanThresholdFinds(m, i + 1);
    }
  }

  /** For a finite key the scan returns the first entry at or below it, else the last entry. */
  lemma ThresholdIndexIsThreshold(m: real)
    ensures IsThreshold(ThresholdIndex(Fin(m)), m)
  {
    ScanThresholdFinds(m, 0);
  }

  /** ThresholdIndex(Fin(m)) is exactly the index IsThreshold describes. */
  lemma ThresholdIndexCharacterized(m: real, k: nat)
    ensures ThresholdIndex(Fin(m)) == k <==> IsThreshold(k, m)
  {
    ThresholdIndexIsThreshold(m);
  }

  lemma SelectOptimalDtIsThreshold(m: real, k: nat)
    requires IsThreshold(k, m)
    ensures SelectOptimalDt(Fin(m)) == Fin(Dts[k])
  {
    ThresholdIndexCharacterized(m, k);
  }

  /** A larger key never selects a larger step size. */
  lemma SelectOptimalDtAntitone(m1: real, m2: real)
    requires m1 <= m2
    ensures SelectOptimalDt(Fin(m2)).r <= SelectOptimalDt(Fin(m1)).r
  {
    ThresholdIndexIsThreshold(m1);
    ThresholdIndexIsThreshold(m2);
    TableShape();
    assert ThresholdIndex(Fin(m2)) <= ThresholdIndex(Fin(m1));
  }

  /**
   * The two lookups disagree: 280000 lies between the second and third
   * reference values, nearest to the second, so the C lookup picks 0.001
   * while the first entry at or below it is the third, 0.0015.
   */
  lemma LookupDiffersFromC()
    ensures SelectOptimalDt(Fin(280000.0)) == Fin(0.0015)
    ensures CPlugin.SelectOptimalDt(Fin(280000.0)) == Fin(0.001)
  {
    SelectOptimalDtIsThreshold(280000.0, 2);
    assert IsNearest(1, 280000.0);
    CPlugin.SelectOptimalDtIsNearest(280000.0, 1);
  }

  /**
   * select_pts_burst: the lookup it performs is discarded and the key
   * sec_per_burst * freq itself is returned, not a step count.
   */
  function SelectPtsBurst(secPerBurst: Dbl, freq: Dbl): (r: Dbl)
    ensures secPerBurst.Fin? && freq.Fin? ==> r == Fin(secPerBurst.r * freq.r)
  {
    FiniteArithmetic(secPerBurst, freq);
    Mul(secPerBurst, freq)
  }

  // ---------------------------------------------------------------------------
  // Controller
  // ---------------------------------------------------------------------------

  lemma DivSelf(x: real)
    requires x != 0.0
    ensures x / x == 1.0
  {
  }

  /** A value divided by itself rounds to at most one: 1 when finite and non-zero, else 0. */
  lemma SelfRatioAtMostOne(q: Dbl)
    ensures RoundToUsize(Div(q, q)) <= 1
  {
    if q.Fin? && q.r != 0.0 {
      DivSelf(q.r);
      assert Div(q, q) == Fin(1.0);
      assert RoundHalfAway(1.0) == 1;
    }
  }

  /** The key burst mode looks up: the burst duration times the frequency 1/period. */
  function BurstKey(burst: Dbl, period: Dbl): (m: Dbl)
    ensures burst.Fin? && period.Fin? && period.r > 0.0 ==> m == Fin(burst.r * (1.0 / period.r))
  {
    var freq := Div(Fin(1.0), period);
    FiniteArithmetic(Fin(1.0), period);
    FiniteArithmetic(burst, freq);
    Mul(burst, freq)
  }

  /**
   * Burst mode's step count: select_pts_burst's result divided by the same
   * product, rounded, at least one. The quotient is 1 or NaN, so the count is
   * always one.
   */
  function BurstStepCount(burst: Dbl, freq: Dbl): (n: nat)
    ensures n == 1
  {
    SelfRatioAtMostOne(Mul(burst, freq));
    AtLeastOne(RoundToUsize(Div(SelectPtsBurst(burst, freq), Mul(burst, freq))))
  }

  /**
   * update_burst_settings. A non-positive (or -inf) period gives one step;
   * burst mode selects a table step size and one step; continuous mode keeps
   * the step size and rounds period/dt, with no ceiling.
   */
  function UpdateBurstSettings(st: State): (r: State)
    ensures r == st.(dt := r.dt, sPoints := r.sPoints)
    ensures r.sPoints >= 1
    ensures Le(st.periodSeconds, Fin(0.0)) ==> r == st.(sPoints := 1)
    ensures !Le(st.periodSeconds, Fin(0.0)) && Gt(st.burstDuration, Fin(0.0)) ==>
      r.sPoints == 1 && r.dt.Fin? && r.dt.r in Dts
    ensures !Le(st.periodSeconds, Fin(0.0)) && Gt(st.burstDuration, Fin(0.0)) ==>
      r.dt == SelectOptimalDt(BurstKey(st.burstDuration, st.periodSeconds))
    ensures !Gt(st.burstDuration, Fin(0.0)) ==> r.dt == st.dt
    ensures IsFinite(st.dt) ==> IsFinite(r.dt)
  {
    if Le(st.periodSeconds, Fin(0.0)) then st.(sPoints := 1)
    else
      var updated :=
        if Gt(st.burstDuration, Fin(0.0)) then
          var freq := Div(Fin(1.0), st.periodSeconds);
          st.(dt := SelectOptimalDt(BurstKey(st.burstDuration, st.periodSeconds)),
              sPoints := BurstStepCount(st.burstDuration, freq))
        else
          st.(sPoints := AtLeastOne(RoundToUsize(Div(st.periodSeconds, st.dt))));
      if updated.sPoints == 0 then updated.(sPoints := 1) else updated
  }

  lemma UpdateBurstSettingsIdempotent(st: State)
    ensures UpdateBurstSettings(UpdateBurstSettings(st)) == UpdateBurstSettings(st)
  {
  }

  /**
   * Burst mode with a finite positive period and burst duration: the step
   * size is the first table entry at or below burst/period.
   */
  lemma BurstModeStep(st: State, k: nat)
    requires st.periodSeconds.Fin? && st.periodSeconds.r > 0.0
    requires st.burstDuration.Fin? && st.burstDuration.r > 0.0
    requires IsThreshold(k, st.burstDuration.r * (1.0 / st.periodSeconds.r))
    ensures UpdateBurstSettings(st) == st.(dt := Fin(Dts[k]), sPoints := 1)
  {
    var key := st.burstDuration.r * (1.0 / st.periodSeconds.r);
    assert BurstKey(st.burstDuration, st.periodSeconds) == Fin(key);
    SelectOptimalDtIsThreshold(key, k);
  }

  /**
   * Continuous mode with a positive period and step size: the kept step size
   * times the step count covers the period to within half a step, however
   * many steps that takes.
   */
  lemma ContinuousModeCoversTick(st: State)
    requires st.periodSeconds.Fin? && st.periodSeconds.r > 0.0
    requires st.dt.Fin? && st.dt.r > 0.0
    requires st.periodSeconds.r / st.dt.r < 0x4000_0000_0000_0000 as real
    requires !Gt(st.burstDuration, Fin(0.0))
    ensures UpdateBurstSettings(st).dt == st.dt
    ensures
      var k := (st.periodSeconds.r / st.dt.r + 0.5).Floor;
      UpdateBurstSettings(st).sPoints == if k < 1 then 1 else k
    ensures CPlugin.CoversTick(st.periodSeconds.r, UpdateBurstSettings(st).sPoints, st.dt.r)
  {
    var p := st.periodSeconds.r;
    var d := st.dt.r;
    var q := p / d;
    CPlugin.PositiveQuotient(p, d);
    assert Div(st.periodSeconds, st.dt) == Fin(q);
    var k := (q + 0.5).Floor;
    assert k as real <= q + 0.5;
    assert RoundToUsize(Fin(q)) == k;
    CPlugin.RoundedStepsCoverPeriod(p, d);
  }

  /**
   * A configured step size of zero or below in continuous mode. Zero makes
   * period/dt +inf, which the saturating cast turns into 2^64 - 1 steps, so
   * every tick runs the 10000-step limit of zero-size steps. A negative step
   * size makes the quotient negative, which rounds to no steps, raised to one
   * step taken backwards.
   */
  lemma NonPositiveDtSteps(st: State, step: StepFn)
    requires st.periodSeconds.Fin? && st.periodSeconds.r > 0.0
    requires !Gt(st.burstDuration, Fin(0.0))
    requires st.dt.Fin? && st.dt.r <= 0.0
    ensures st.dt.r == 0.0 ==> UpdateBurstSettings(st) == st.(sPoints := Two64 - 1)
    ensures st.dt.r == 0.0 ==>
      var t := ProcessTick(UpdateBurstSettings(st), st.periodSeconds, step);
      |t.calls| == TickStepLimit && forall i | 0 <= i < |t.calls| :: t.calls[i].dt == Fin(0.0)
    ensures st.dt.r < 0.0 ==> UpdateBurstSettings(st) == st.(sPoints := 1)
  {
    FiniteArithmetic(st.periodSeconds, st.dt);
  }

  /**
   * A +inf host period in continuous mode. process_tick adopts it, since the
   * difference from a finite stored period is +inf. period/dt is then +inf,
   * which the saturating cast turns into 2^64 - 1 steps, so the tick runs the
   * 10000-step limit. The period stays +inf and the count stays saturated.
   */
  lemma InfPeriodSteps(st: State, step: StepFn)
    requires st.periodSeconds.Fin?
    requires st.dt.Fin? && st.dt.r > 0.0
    requires !Gt(st.burstDuration, Fin(0.0))
    ensures UpdateBurstSettings(st.(periodSeconds := PosInf)) == st.(periodSeconds := PosInf, sPoints := Two64 - 1)
    ensures
      var t := ProcessTick(st, PosInf, step);
      && t.after.periodSeconds == PosInf && t.after.dt == st.dt && t.after.sPoints == Two64 - 1
      && |t.calls| == TickStepLimit
  {
    assert Div(PosInf, st.dt) == PosInf;
    assert PeriodMoved(st, PosInf);
  }

  /**
   * A one-second period in continuous mode at the default step size gives
   * 667 steps of 0.0015 (the C controller would switch to ten steps of 0.1).
   */
  lemma ContinuousModeHasNoCeiling()
    ensures
      var st := Initial.(burstDuration := Fin(0.0), periodSeconds := Fin(1.0));
      UpdateBurstSettings(st) == st.(sPoints := 667)
  {
    assert Div(Fin(1.0), Fin(DefaultDt)) == Fin(1.0 / 0.0015);
    assert (1.0 / 0.0015 + 0.5).Floor == 667;
  }

  // ---------------------------------------------------------------------------
  // Entry points
  // ---------------------------------------------------------------------------

  /** The live state replaced by the configured initial condition. */
  function Reset(st: State): (r: State) {
    st.(x := st.cfgX, y := st.cfgY, z := st.cfgZ)
  }

  /** The `match key` of set_config_value for a numeric value v. */
  function AssignConfig(st: State, key: string, v: Dbl): (r: State) {
    if key == "x" then st.(cfgX := v)
    else if key == "y" then st.(cfgY := v)
    else if key == "z" then st.(cfgZ := v)
    else if key == "e" then st.(e := v)
    else if key == "mu" then st.(mu := v)
    else if key == "s" then st.(s := v)
    else if key == "vh" then st.(vh := v)
    else if key == "dt" then st.(dt := v)
    else if key == "burst_duration" then st.(burstDuration := v)
    else if key == "period_seconds" then st.(periodSeconds := v)
    else st
  }

  /**
   * The reset of set_config_value: the live state takes the configured values
   * unless all three already compare equal; either way they end up identical.
   */
  function ResetIfMoved(st: State): (r: State)
    ensures r == Reset(st)
  {
    if Eq(st.x, st.cfgX) && Eq(st.y, st.cfgY) && Eq(st.z, st.cfgZ) then st
    else st.(x := st.cfgX, y := st.cfgY, z := st.cfgZ)
  }

  /**
   * set_config_value: a numeric value is stored under its key (x, y, z set
   * only the configured initial condition); then, numeric or not, the live
   * state is reset to the configured one and the controller runs.
   */
  function SetConfigValue(st: State, key: string, value: JsonValue): (r: State)
    ensures VarsOf(r) == CfgVarsOf(r)
    ensures UpdateBurstSettings(r) == r
    ensures value.JsonNumber? && key == "x" ==> r == Reset(st).(x := Fin(value.n), cfgX := Fin(value.n), dt := r.dt, sPoints := r.sPoints)
    ensures value.JsonNumber? && key == "y" ==> r == Reset(st).(y := Fin(value.n), cfgY := Fin(value.n), dt := r.dt, sPoints := r.sPoints)
    ensures value.JsonNumber? && key == "z" ==> r == Reset(st).(z := Fin(value.n), cfgZ := Fin(value.n), dt := r.dt, sPoints := r.sPoints)
    ensures value.JsonNumber? && key == "e" ==> r == Reset(st).(e := Fin(value.n), dt := r.dt, sPoints := r.sPoints)
    ensures value.JsonNumber? && key == "mu" ==> r == Reset(st).(mu := Fin(value.n), dt := r.dt, sPoints := r.sPoints)
    ensures value.JsonNumber? && key == "s" ==> r == Reset(st).(s := Fin(value.n), dt := r.dt, sPoints := r.sPoints)
    ensures value.JsonNumber? && key == "vh" ==> r == Reset(st).(vh := Fin(value.n), dt := r.dt, sPoints := r.sPoints)
    ensures value.JsonNumber? && key == "burst_duration" ==> r == Reset(st).(burstDuration := Fin(value.n), dt := r.dt, sPoints := r.sPoints)
    ensures value.JsonNumber? && key == "period_seconds" ==> r == Reset(st).(periodSeconds := Fin(value.n), dt := r.dt, sPoints := r.sPoints)
    ensures value.JsonNumber? && key == "dt" ==> r == Reset(st).(dt := r.dt, sPoints := r.sPoints)
    // a configured step size survives unless burst mode is active, which replaces it by a table value
    ensures value.JsonNumber? && key == "dt" && !(Gt(st.burstDuration, Fin(0.0)) && !Le(st.periodSeconds, Fin(0.0))) ==>
      r.dt == Fin(value.n)
    // no other key moves the step size unless burst mode replaces it by a table value
    ensures !(value.JsonNumber? && key == "dt") && !(Gt(r.burstDuration, Fin(0.0)) && !Le(r.periodSeconds, Fin(0.0))) ==>
      r.dt == st.dt
    // an unknown key or a non-numeric value still resets the live state and reruns the controller
    ensures value.JsonOther? || key !in ConfigKeys ==> r == Reset(st).(dt := r.dt, sPoints := r.sPoints)
  {
    var configured := match AsF64(value)
      case Some(v) => AssignConfig(st, key, v)
      case None => st;
    var reset := ResetIfMoved(configured);
    UpdateBurstSettingsIdempotent(reset);
    UpdateBurstSettings(reset)
  }

  /** set_input_value: "i_syn" stores the input, with a non-finite value replaced by 0.0. */
  function SetInputValue(st: State, key: string, value: Dbl): (r: State)
    ensures key == "i_syn" ==> r == st.(inputSyn := r.inputSyn) && IsFinite(r.inputSyn)
    ensures key == "i_syn" && IsFinite(value) ==> r.inputSyn == value
    ensures key == "i_syn" && !IsFinite(value) ==> r.inputSyn == Fin(0.0)
    ensures key != "i_syn" ==> r == st
  {
    if key == "i_syn" then st.(inputSyn := if IsFinite(value) then value else Fin(0.0)) else st
  }

  /** On a finite input the Rust and C variants store the same thing. */
  lemma InputAgreesWithCWhenFinite(st: State, key: string, value: Dbl)
    requires IsFinite(value)
    ensures Some(SetInputValue(st, key, value)) == CPlugin.SetInput(Some(st), Some(key), value)
  {
  }

  /**
   * n calls of `step`: each reads the step size and the parameters from the
   * record as it stands and writes the new x, y, z back. Nothing else in the
   * record changes between calls, so they form one run under one snapshot.
   */
  function StepLoop(st: State, step: StepFn, n: nat): (r: (State, seq<Call>))
    ensures r.0 == WithVars(st, VarsOf(r.0))
    ensures |r.1| == n
    ensures IsRun(step, VarsOf(st), st.dt, CtxOf(st), r.1, VarsOf(r.0))
    decreases n
  {
    if n == 0 then (st, [])
    else
      var c := Call(VarsOf(st), st.dt, CtxOf(st));
      var rest := StepLoop(WithVars(st, Apply(step, c)), step, n - 1);
      (rest.0, [c] + rest.1)
  }

  /** The condition under which process_tick adopts the host period and reruns the controller. */
  predicate PeriodMoved(st: State, hostPeriod: Dbl) {
    Gt(Abs(Sub(st.periodSeconds, hostPeriod)), Fin(Epsilon))
  }

  /**
   * process_tick: adopt a moved host period, then run s_points sub-steps,
   * bounded to [1, 10000], all with the step size and parameters of the
   * record at the start of the loop.
   */
  function ProcessTick(st: State, hostPeriod: Dbl, step: StepFn): (t: Tick)
    ensures PeriodMoved(st, hostPeriod) ==>
      t.after == WithVars(UpdateBurstSettings(st.(periodSeconds := hostPeriod)), VarsOf(t.after))
    ensures !PeriodMoved(st, hostPeriod) ==> t.after == WithVars(st, VarsOf(t.after))
    ensures |t.calls| == Clamp(t.after.sPoints, 1, TickStepLimit)
    ensures IsRun(step, VarsOf(st), t.after.dt, CtxOf(st), t.calls, VarsOf(t.after))
  {
    var timed := if PeriodMoved(st, hostPeriod) then UpdateBurstSettings(st.(periodSeconds := hostPeriod)) else st;
    var steps := AtLeastOne(if timed.sPoints < TickStepLimit then timed.sPoints else TickStepLimit);
    var run := StepLoop(timed, step, steps);
    Tick(run.0, run.1)
  }

  /**
   * The controller is not rerun when the host period is within f64::EPSILON
   * of the stored one, nor when either is NaN (the difference is NaN and the
   * comparison fails).
   */
  lemma SteadyPeriodSkipsController(st: State, hostPeriod: Dbl, step: StepFn)
    requires
      || (st.periodSeconds.Fin? && hostPeriod.Fin? &&
          -Epsilon <= st.periodSeconds.r - hostPeriod.r <= Epsilon)
      || st.periodSeconds.NaN? || hostPeriod.NaN?
    ensures ProcessTick(st, hostPeriod, step).after == WithVars(st, VarsOf(ProcessTick(st, hostPeriod, step).after))
  {
  }

  /** get_output_value: the membrane potential in volts or millivolts; 0.0 for any other key. */
  function GetOutputValue(st: State, key: string): (v: Dbl)
    ensures key == "Membrane potential (V)" ==> v == st.x
    ensures key == "Membrane potential (mV)" ==> v == Mul(st.x, Fin(1000.0))
    ensures key !in PotentialKeys ==> v == Fin(0.0)
  {
    if key == "Membrane potential (V)" then st.x
    else if key == "Membrane potential (mV)" then Mul(st.x, Fin(1000.0))
    else Fin(0.0)
  }

  /** get_internal_value: x, y, z by name; nothing for any other key. */
  function GetInternalValue(st: State, key: string): (v: Option<Dbl>)
    ensures v.Some? <==> key in InternalKeys
    ensures key == "x" ==> v == Some(st.x)
    ensures key == "y" ==> v == Some(st.y)
    ensures key == "z" ==> v == Some(st.z)
  {
    if key == "x" then Some(st.x)
    else if key == "y" then Some(st.y)
    else if key == "z" then Some(st.z)
    else None
  }

  /**
   * The Rust outputs match what the C variant's get_output returns for the
   * same names: the potentials as outputs, x, y, z as internal values.
   */
  lemma OutputsAgreeWithC(st: State, key: string)
    ensures key in PotentialKeys ==> GetOutputValue(st, key) == CPlugin.GetOutput(Some(st), Some(key))
    ensures key in InternalKeys ==> GetInternalValue(st, key) == Some(CPlugin.GetOutput(Some(st), Some(key)))
  {
  }

  // ---------------------------------------------------------------------------
  // Host sequences
  // ---------------------------------------------------------------------------

  /** A host call on a live plugin instance. */
  datatype HostOp =
    | Configure(key: string, value: JsonValue)
    | Input(name: string, input: Dbl)
    | Advance(hostPeriod: Dbl)

  function Run(st: State, ops: seq<HostOp>, step: StepFn): (r: State)
    decreases |ops|
  {
    if |ops| == 0 then st
    else
      var next := match ops[0]
        case Configure(k, v) => SetConfigValue(st, k, v)
        case Input(n, v) => SetInputValue(st, n, v)
        case Advance(p) => ProcessTick(st, p, step).after;
      Run(next, ops[1..], step)
  }

  /** A finite step size and at least one scheduled step. */
  predicate Healthy(st: State) {
    IsFinite(st.dt) && st.sPoints >= 1
  }

  lemma {:induction false} RunStaysHealthy(st: State, ops: seq<HostOp>, step: StepFn)
    requires Healthy(st)
    ensures Healthy(Run(st, ops, step))
    decreases |ops|
  {
    if |ops| > 0 {
      var next := match ops[0]
        case Configure(k, v) => SetConfigValue(st, k, v)
        case Input(n, v) => SetInputValue(st, n, v)
        case Advance(p) => ProcessTick(st, p, step).after;
      RunStaysHealthy(next, ops[1..], step);
    }
  }

  /**
   * Whatever the host does, including NaN or infinite tick periods, every
   * sub-step the next tick makes is given a finite step size: host periods
   * never reach dt, and configured values are JSON numbers.
   */
  lemma ReachableStepIsFinite(ops: seq<HostOp>, hostPeriod: Dbl, step: StepFn)
    ensures Healthy(Run(Initial, ops, step))
    ensures
      var t := ProcessTick(Run(Initial, ops, step), hostPeriod, step);
      1 <= |t.calls| <= TickStepLimit && forall i | 0 <= i < |t.calls| :: IsFinite(t.calls[i].dt)
  {
    RunStaysHealthy(Initial, ops, step);
  }
}

=== FILE: step_table.dfy ===
/**
 * The step-size table shared by all three variants of the plugin, and the
 * nearest-entry scan that the C and C++ variants run over it.
 *
 * Entry i pairs an integration step size `Dts[i]` (seconds) with the
 * points-per-burst reference value `Pts[i]` it was tuned for. Step sizes grow
 * and reference values shrink along the table.
 */
module StepTable {
  import opened Float

  const Dts: seq<real> := [0.0005, 0.001, 0.0015, 0.002, 0.003, 0.005, 0.01, 0.015, 0.02, 0.03, 0.05, 0.1]
  const Pts: seq<real> := [577638.0, 286092.5, 189687.0, 142001.8, 94527.4, 56664.4, 28313.6, 18381.1, 14223.2, 9497.0, 5716.9, 2829.7]

  /** The step size every variant starts with and falls back to. */
  const DefaultDt: real := 0.0015

  /** Reference values strictly decrease and step sizes strictly increase along the table. */
  lemma TableShape()
    ensures |Dts| == |Pts| == 12
    ensures forall i, j | 0 <= i < j < 12 :: Pts[i] > Pts[j] && Dts[i] < Dts[j]
    ensures forall i | 0 <= i < 12 :: Dts[i] >= Dts[0] > 0.0
    ensures DefaultDt in Dts
  {
  }

  /** |Pts[i] - m| in exact arithmetic. */
  function Dist(i: nat, m: real): (d: real)
    requires i < |Pts|
  {
    if Pts[i] >= m then Pts[i] - m else m - Pts[i]
  }

  /**
   * Entry k is the nearest one to m: no entry is closer, and every earlier
   * entry is strictly farther (ties go to the smaller index).
   */
  predicate IsNearest(k: nat, m: real) {
    && k < |Pts|
    && (forall j | 0 <= j < |Pts| :: Dist(k, m) <= Dist(j, m))
    && (forall j | 0 <= j < k :: Dist(j, m) > Dist(k, m))
  }

  /** `fabs(pts[i] - m)` in doubles. */
  function Distance(i: nat, m: Dbl): (d: Dbl)
    requires i < |Pts|
  {
    Abs(Sub(Fin(Pts[i]), m))
  }

  /**
   * The loop of select_optimal_dt from index i on, holding the best index so
   * far and its distance; an entry replaces the best only when strictly closer.
   */
  function ScanNearest(m: Dbl, i: nat, best: nat, bestDist: Dbl): (k: nat)
    requires best < i <= |Pts|
    ensures best <= k < |Pts|
    decreases |Pts| - i
  {
    if i == |Pts| then best
    else if Lt(Distance(i, m), bestDist) then ScanNearest(m, i + 1, i, Distance(i, m))
    else ScanNearest(m, i + 1, best, bestDist)
  }

  /** The index select_optimal_dt settles on. */
  function NearestIndex(m: Dbl): (k: nat)
    ensures k < |Pts|
  {
    ScanNearest(m, 1, 0, Distance(0, m))
  }

  lemma {:induction false} ScanNearestFinds(m: real, i: nat, best: nat)
    requires best < i <= |Pts|
    requires forall j | 0 <= j < i :: Dist(best, m) <= Dist(j, m)
    requires forall j | 0 <= j < best :: Dist(j, m) > Dist(best, m)
    ensures IsNearest(ScanNearest(Fin(m), i, best, Fin(Dist(best, m))), m)
    decreases |Pts| - i
  {
    if i < |Pts| {
      assert Distance(i, Fin(m)) == Fin(Dist(i, m));
      if Dist(i, m) < Dist(best, m) {
        ScanNearestFinds(m, i + 1, i);
      } else {
        ScanNearestFinds(m, i + 1, best);
      }
    }
  }

  /** For a finite key the scan finds the nearest entry, with the smaller-index tie-break. */
  lemma NearestIndexIsNearest(m: real)
    ensures IsNearest(NearestIndex(Fin(m)), m)
  {
    assert Distance(0, Fin(m)) == Fin(Dist(0, m));
    ScanNearestFinds(m, 1, 0);
  }

  /** The nearest entry with its tie-break is unique. */
  lemma NearestUnique(k1: nat, k2: nat, m: real)
    requires IsNearest(k1, m) && IsNearest(k2, m)
    ensures k1 == k2
  {
    // both are nearest, so they are equally far; a strictly earlier one would be strictly farther
    assert Dist(k1, m) == Dist(k2, m);
  }

  /** NearestIndex(Fin(m)) is exactly the index IsNearest describes. */
  lemma NearestIndexCharacterized(m: real, k: nat)
    ensures NearestIndex(Fin(m)) == k <==> IsNearest(k, m)
  {
    NearestIndexIsNearest(m);
    if IsNearest(k, m) {
      NearestUnique(k, NearestIndex(Fin(m)), m);
    }
  }

  /** A key at or below every reference value is nearest to the last entry. */
  lemma NearestBelowTable(m: real)
    requires m <= Pts[11]
    ensures IsNearest(11, m)
  {
    TableShape();
  }

  lemma {:induction false} ScanNearestStuck(m: Dbl, i: nat, best: nat, bestDist: Dbl)
    requires !m.Fin?
    requires best < i <= |Pts|
    requires bestDist == Distance(0, m)
    ensures ScanNearest(m, i, best, bestDist) == best
    decreases |Pts| - i
  {
    if i < |Pts| {
      assert Distance(i, m) == bestDist;
      ScanNearestStuck(m, i + 1, best, bestDist);
    }
  }

  /**
   * Against a NaN or infinite key every distance is NaN or +inf, no strict
   * comparison succeeds, and the scan keeps the first entry.
   */
  lemma NearestIndexNonFinite(m: Dbl)
    ensures !m.Fin? ==> NearestIndex(m) == 0
  {
    if !m.Fin? {
      ScanNearestStuck(m, 1, 0, Distance(0, m));
    }
  }
}
